=== FILE: README.md ===
# Herd: the key-value entity store and the application commands

This project is a Dafny model of the core of Herd, a Mastodon client. The model covers two layers.

**`HerdKeyValuePairDataProvider`** is a small document store built on three backend primitives: list the keys under a root, read a key, and write a key. On top of these it provides:

- key building: `root⟨d⟩Type⟨d⟩id` for a record and `root⟨d⟩Type⟨d⟩NextID` for the type's counter;
- per-type ID allocation from that counter;
- reads by ID;
- enumeration of a type, keeping only the keys whose last segment is a long;
- first-match search by predicate;
- blind overwrite.

It also has typed wrappers for app registrations, user accounts and user profiles.

**`HerdApp`** runs each command inside `ProcessCommand`, which turns every exception into one entry of the result's `Errors`. The commands are:

- `GetUser` and `GetRegistration`: reads by ID;
- `CreateUser`: rejects a taken email, stores the account with a salted password, then stores a profile and links the account and the profile to each other;
- `LoginUser`;
- `GetOrCreateRegistration`;
- `GetOAuthURL`.

Everything is modelled as a pure function.

- **Store.** The backend is an immutable map, plus the order in which its keys are enumerated. Each write returns a new store.
- **Exceptions.** A C# call that can throw returns an `Outcome` (`Returned(v)` or `Threw(x)`).
- **Commands.** A command returns its `CommandResult` together with the provider state it leaves behind.
- **External functions as parameters.** The following are parameters of the model:
  - JSON serialisation: a `Codec` per entity type, with encode and decode functions;
  - password hashing;
  - the random salt;
  - the two Mastodon API calls.

Files, bottom-up:

- `nullable.dfy` and `exceptions.dfy`: C# null as `Option`; exceptions, errors and `Outcome`.
- `dotnet_text.dfy`: the .NET text functions the store relies on.
  - `long.ToString()`.
  - `long.TryParse` with the default number style.
  - `string.IsNullOrWhiteSpace`.
  - `Split(d).Last()`.
- `sequences.dfy` and `key_value_backend.dfy`: LINQ `Where`, and the backend primitives.
- `entity_keys.dfy`: the three key builders and the enumeration filter, with the lemmas that keep namespaces apart.
- `entity_store.dfy`: the generic `GetEntity`, `GetAllEntities`, `CreateEntity` and `UpdateEntity`.
- `entity_store_properties.dfy`: lemmas about the store.
  - Consecutive IDs.
  - Round trips.
  - Counters never enumerated.
  - Isolation between types.
  - First-match search.
- `herd_data_provider.dfy`: the typed wrappers, with each type's read-back lemmas.
- `herd_app.dfy` and `herd_app_properties.dfy`: the commands and what they guarantee across calls.

The source files cited below are `Herd.Data/Providers/HerdKeyValuePairDataProvider.cs` (the provider) and `Herd.Business/HerdApp.cs` (the application).

## Model

| member | source | states |
|---|---|---|
| DotNetText.UncheckedIncrement | Herd.Data/Providers/HerdKeyValuePairDataProvider.cs:101 | `entity.ID + 1` is the long congruent to ID + 1 modulo 2^64: it is ID + 1 below the top of the range, and `long.MaxValue` wraps to `long.MinValue`. |
| DotNetText.IsNullOrWhiteSpace | Herd.Data/Providers/HerdKeyValuePairDataProvider.cs:96 | Null and the empty string are blank. A string whose first character is not white space is not blank. |
| DotNetText.Show | Herd.Data/Providers/HerdKeyValuePairDataProvider.cs:101 | A long's text is non-empty, consists of digits and minus signs only, starts with a digit or a minus sign, and ends with a digit. So it never holds a delimiter that is neither. |
| DotNetText.TryParseLong | Herd.Data/Providers/HerdKeyValuePairDataProvider.cs:67 | Empty text, and text made only of white-space characters (the same set `IsNullOrWhiteSpace` uses, Unicode separators included), is not a long. This is why a blank counter cannot be parsed and has to be special-cased. |
| DotNetText.TryParseShow | Herd.Data/Providers/HerdKeyValuePairDataProvider.cs:100-101 | A long written as text parses back to the same long. This is why a stored counter and an ID in a key read back as written. |
| DotNetText.DigitsValueShowNat | Herd.Data/Providers/HerdKeyValuePairDataProvider.cs:100-101 | The decimal digits of n have the value n. This is the inductive core of the round trip above. |
| DotNetText.TryParseRejectsLetter | Herd.Data/Providers/HerdKeyValuePairDataProvider.cs:67 | Text that starts with a letter is never a long, so a last segment like `NextID` fails the enumeration filter. |
| DotNetText.LastSegment | Herd.Data/Providers/HerdKeyValuePairDataProvider.cs:67 | `Split(d).Last()` returns a suffix of the key that holds no delimiter. When the suffix is not the whole key, a delimiter comes right before it. |
| DotNetText.LastSegmentAfterDelimiter | Herd.Data/Providers/HerdKeyValuePairDataProvider.cs:112-115 | The last piece of `p⟨d⟩t` is a suffix of `t`. When `t` holds no delimiter, the last piece is all of `t`. |
| EntityKeys.EntityRootKey | Herd.Data/Providers/HerdKeyValuePairDataProvider.cs:117-120 | A type's root key lies under the provider's root key. |
| EntityKeys.EntityKey | Herd.Data/Providers/HerdKeyValuePairDataProvider.cs:112-115 | A record key lies under its type's root key. |
| EntityKeys.NextIdKey | Herd.Data/Providers/HerdKeyValuePairDataProvider.cs:122-125 | The counter key lies under its type's root key, like the type's record keys. |
| EntityKeys.IsInstanceKey | Herd.Data/Providers/HerdKeyValuePairDataProvider.cs:67 | The enumeration filter rejects a key whose last segment is empty or starts with a letter, as the counter key's `NextID` does. |
| EntityKeys.EntityKeyIsInstance | Herd.Data/Providers/HerdKeyValuePairDataProvider.cs:112-120 | An entity key lies under its type's root key, and its last segment is the ID's text. So every record key passes the enumeration filter. |
| EntityKeys.NextIdKeyIsNotInstance | Herd.Data/Providers/HerdKeyValuePairDataProvider.cs:122-125 | The counter key lies under the type's root key but never passes the enumeration filter, for any delimiter. |
| EntityKeys.EntityKeyInjective | Herd.Data/Providers/HerdKeyValuePairDataProvider.cs:112-120 | Two entity keys are equal exactly when their type names and their IDs are equal. This holds when no type name contains the delimiter. |
| EntityKeys.EntityKeyInjectiveWithinType | Herd.Data/Providers/HerdKeyValuePairDataProvider.cs:112-120 | Within one type, two entity keys are equal exactly when their IDs are equal, whatever the delimiter and the type name. |
| EntityKeys.SameEntityKeySameId | Herd.Data/Providers/HerdKeyValuePairDataProvider.cs:112-115 | Equal entity keys carry equal IDs, whatever the type names. |
| EntityKeys.EntityKeyIsNotNextIdKey | Herd.Data/Providers/HerdKeyValuePairDataProvider.cs:112-125 | A record key never equals a counter key, of the same type or of another, whatever the delimiter. |
| EntityKeys.EntityKeyIsNotOwnNextIdKey | Herd.Data/Providers/HerdKeyValuePairDataProvider.cs:112-125 | A type's record keys never equal its own counter key, whatever the delimiter. |
| EntityKeys.NextIdKeyInjective | Herd.Data/Providers/HerdKeyValuePairDataProvider.cs:122-125 | Types with different names have different counter keys. |
| EntityKeys.OtherNamespace | Herd.Data/Providers/HerdKeyValuePairDataProvider.cs:117-125 | No key built under one type's root key (record or counter) lies under another type's root key. |
| KeyValueBackend.ReadKey | Herd.Data/Providers/HerdKeyValuePairDataProvider.cs:51 | A read finds a value exactly when the key is stored, and returns the stored value. A missing key reads as null. |
| KeyValueBackend.WriteKey | Herd.Data/Providers/HerdKeyValuePairDataProvider.cs:52 | After a write, the key reads the new value and every other key reads as before. A well-formed backend stays well-formed. |
| KeyValueBackend.GetAllKeys | Herd.Data/Providers/HerdKeyValuePairDataProvider.cs:50 | Listing a root returns exactly the stored keys under that root, without repeats. |
| KeyValueBackend.GetAllKeysAfterWriteOutside | Herd.Data/Providers/HerdKeyValuePairDataProvider.cs:50-52 | A write outside a root does not change the listing of that root. |
| Sequences.Filter | Herd.Data/Providers/HerdKeyValuePairDataProvider.cs:67 | `Where` keeps exactly the elements the predicate accepts, and never lengthens the sequence. |
| Sequences.FilterCons | Herd.Data/Providers/HerdKeyValuePairDataProvider.cs:67 | `Where` from the front: the first element leads the result when accepted and is dropped otherwise, and the rest follows, filtered alike. So the result is the accepted elements in their order, repetitions included. |
| Sequences.FilterDistinct | Herd.Data/Providers/HerdKeyValuePairDataProvider.cs:67 | Filtering a list without repeats gives a list without repeats. |
| EntityStore.GetEntityByKey | Herd.Data/Providers/HerdKeyValuePairDataProvider.cs:76-87 | A missing key gives null. A stored value gives whatever its JSON decodes to, which is null when it does not parse. The read never throws. |
| EntityStore.GetEntity | Herd.Data/Providers/HerdKeyValuePairDataProvider.cs:71-74 | Reading by ID finds a record exactly when the ID's key is stored and decodes. The record found is the decoded one. |
| EntityStore.InstanceKeys | Herd.Data/Providers/HerdKeyValuePairDataProvider.cs:63-68 | A key is enumerated exactly when three things hold: it is stored, it lies under the type's root key, and its last segment is a long. There are no repeats, and the counter key is never enumerated. |
| EntityStore.GetAllEntities | Herd.Data/Providers/HerdKeyValuePairDataProvider.cs:63-69 | The enumeration has one element per enumerated key, in the same order. Each element is that key's record; an unreadable record stays in as null. |
| EntityStore.FirstOrDefault | Herd.Data/Providers/HerdKeyValuePairDataProvider.cs:58-61 | The search returns the first accepted record, or null when every record is rejected. It throws a null reference when it reaches a null before any match. |
| EntityStore.GetEntityWhere | Herd.Data/Providers/HerdKeyValuePairDataProvider.cs:58-61 | A record that the lookup returns is accepted by the predicate and is enumerated. The only exception it can throw is a null reference. |
| EntityStore.AllocateId | Herd.Data/Providers/HerdKeyValuePairDataProvider.cs:93-100 | A missing or blank counter allocates 1. Otherwise the counter's text is parsed as a long, and text that is not a long throws. |
| EntityStore.UpdateEntity | Herd.Data/Providers/HerdKeyValuePairDataProvider.cs:107-110 | Update writes exactly one key: the entity's key now holds its JSON. Every other key is unchanged. |
| EntityStore.CreateEntity | Herd.Data/Providers/HerdKeyValuePairDataProvider.cs:89-105 | A create succeeds exactly when the allocation does, and the entity receives the allocated ID. Exactly two keys change: the counter, which now holds ID + 1 with wrap-around whatever the delimiter, and the new record key. A failed allocation writes nothing. |
| EntityStoreProperties.CreateAdvancesCounter | Herd.Data/Providers/HerdKeyValuePairDataProvider.cs:100-101 | After a create, the next allocation of that type yields the issued ID + 1. |
| EntityStoreProperties.AllocateShownId | Herd.Data/Providers/HerdKeyValuePairDataProvider.cs:93-100 | A counter that holds a long's text allocates that long. |
| EntityStoreProperties.CreateTwiceConsecutive | Herd.Data/Providers/HerdKeyValuePairDataProvider.cs:93-101 | A second create of the same type always succeeds and gets the next ID. |
| EntityStoreProperties.CreateRunAt | Herd.Data/Providers/HerdKeyValuePairDataProvider.cs:93-104 | Along a run of creates of one type that starts at counter n, while n+i ≤ long.MaxValue the i-th entity gets ID n+i and the counter then stands at n+i+1. |
| EntityStoreProperties.CreateRunConsecutive | Herd.Data/Providers/HerdKeyValuePairDataProvider.cs:93-104 | A run of N creates from counter n, while n+N ≤ long.MaxValue, yields the entities unchanged apart from their IDs, which are n, …, n+N-1. The counter ends at n+N. |
| EntityStoreProperties.CreateRunDistinct | Herd.Data/Providers/HerdKeyValuePairDataProvider.cs:93-104 | IDs issued by a run of N creates from counter n, while n+N ≤ long.MaxValue, strictly increase, so they are unique. |
| EntityStoreProperties.CreateThenGet | Herd.Data/Providers/HerdKeyValuePairDataProvider.cs:71-74 | After a create, reading the new ID returns the entity with that ID. |
| EntityStoreProperties.CreatedIsEnumerated | Herd.Data/Providers/HerdKeyValuePairDataProvider.cs:63-68 | A created record is enumerated. |
| EntityStoreProperties.CounterNeverEnumerated | Herd.Data/Providers/HerdKeyValuePairDataProvider.cs:63-68 | No counter key, of this type or any other, is ever enumerated. |
| EntityStoreProperties.UpdateThenGet | Herd.Data/Providers/HerdKeyValuePairDataProvider.cs:107-110 | After an update, reading the entity's ID returns the entity, and every other ID reads as before. This holds for every delimiter and type name. |
| EntityStoreProperties.UpdateIdempotent | Herd.Data/Providers/HerdKeyValuePairDataProvider.cs:107-110 | Updating with the same entity twice leaves the same store as updating once. |
| EntityStoreProperties.UpdateKeepsOwnCounter | Herd.Data/Providers/HerdKeyValuePairDataProvider.cs:101-110 | An update never moves its own type's counter, so the next allocation is unchanged and stays one past the last issued ID. |
| EntityStoreProperties.WriteOutsideEnumeration | Herd.Data/Providers/HerdKeyValuePairDataProvider.cs:63-69 | A write outside a type's root key changes neither that type's enumerated keys nor its records. |
| EntityStoreProperties.WriteOutsideCounter | Herd.Data/Providers/HerdKeyValuePairDataProvider.cs:93-100 | A write outside a type's root key does not change what that type's next allocation yields. |
| EntityStoreProperties.WriteOutsideGet | Herd.Data/Providers/HerdKeyValuePairDataProvider.cs:71-74 | A write outside a type's root key does not change what any of that type's IDs reads. |
| EntityStoreProperties.WriteOutsideType | Herd.Data/Providers/HerdKeyValuePairDataProvider.cs:112-125 | Everything a type observes survives a write outside its namespace: its enumeration, records, counter and reads by ID. |
| EntityStoreProperties.UpdateIsolation | Herd.Data/Providers/HerdKeyValuePairDataProvider.cs:107-125 | Updating a record of one type changes nothing another type observes, its predicate lookups included. |
| EntityStoreProperties.CreateIsolation | Herd.Data/Providers/HerdKeyValuePairDataProvider.cs:89-125 | Creating a record of one type changes neither another type's counter, nor its records, nor its lookups. |
| EntityStoreProperties.InstanceKeysFrame | Herd.Data/Providers/HerdKeyValuePairDataProvider.cs:63-68 | Consider keys outside the set of written keys. Each such key enumerated after the writes was already enumerated before them, with the same record. |
| EntityStoreProperties.FindNoneMeansNoMatch | Herd.Data/Providers/HerdKeyValuePairDataProvider.cs:58-61 | A lookup that returns null saw only readable records, and the predicate rejected every one. |
| EntityStoreProperties.FindSoleMatch | Herd.Data/Providers/HerdKeyValuePairDataProvider.cs:58-61 | Suppose one enumerated record matches and every other is readable and rejected. Then the lookup returns that record, whatever the enumeration order. |
| EntityStoreProperties.NoOtherMatchAfterCreate | Herd.Data/Providers/HerdKeyValuePairDataProvider.cs:58-105 | Suppose a lookup found nothing. After a create, every enumerated key except the new one still holds a readable record that the lookup rejects. |
| EntityStoreProperties.CreateMakesSoleMatch | Herd.Data/Providers/HerdKeyValuePairDataProvider.cs:58-105 | Suppose a lookup found nothing. If the next create stores a matching record, that record becomes the only match. |
| EntityStoreProperties.FindAfterCreate | Herd.Data/Providers/HerdKeyValuePairDataProvider.cs:58-105 | Suppose a lookup found nothing. If the next create stores a matching record, the same lookup now returns that record. |
| EntityStoreProperties.UpdateKeepsSoleMatch | Herd.Data/Providers/HerdKeyValuePairDataProvider.cs:107-110 | Overwriting the only match with a record that still matches keeps it the only match, now with the new contents. |
| EntityStoreProperties.SameViewKeepsSoleMatch | Herd.Data/Providers/HerdKeyValuePairDataProvider.cs:58-69 | If a type observes the same in two stores, its only match is the same in both. |
| HerdDataProvider.GetAppRegistration | Herd.Data/Providers/HerdKeyValuePairDataProvider.cs:24 | A registration is found by ID exactly when its `AppRegistration` key is stored and decodes. |
| HerdDataProvider.GetAppRegistrationByInstance | Herd.Data/Providers/HerdKeyValuePairDataProvider.cs:25 | A registration found by instance has that instance and is enumerated. Null means every enumerated registration is readable and has another instance. The call throws only a null reference. |
| HerdDataProvider.CreateAppRegistration | Herd.Data/Providers/HerdKeyValuePairDataProvider.cs:26 | The create succeeds exactly when the counter allocates, and writes the registration's JSON, carrying the new ID, under that ID's key. Users and profiles observe nothing of it. |
| HerdDataProvider.UpdateAppRegistration | Herd.Data/Providers/HerdKeyValuePairDataProvider.cs:27 | The update writes the registration's JSON under its ID. Users and profiles observe nothing of it. |
| HerdDataProvider.GetUser | Herd.Data/Providers/HerdKeyValuePairDataProvider.cs:33 | An account is found by ID exactly when its `UserAccount` key is stored and decodes. |
| HerdDataProvider.GetUserByEmail | Herd.Data/Providers/HerdKeyValuePairDataProvider.cs:34 | An account found by email has that email and is enumerated. Null means every enumerated account is readable and has another email. The call throws only a null reference. |
| HerdDataProvider.CreateUser | Herd.Data/Providers/HerdKeyValuePairDataProvider.cs:35 | The create succeeds exactly when the counter allocates, and writes the account's JSON, carrying the new ID, under that ID's key. Registrations and profiles observe nothing of it. |
| HerdDataProvider.UpdateUser | Herd.Data/Providers/HerdKeyValuePairDataProvider.cs:36 | The update writes the account's JSON under its ID. Registrations and profiles observe nothing of it. |
| HerdDataProvider.GetProfile | Herd.Data/Providers/HerdKeyValuePairDataProvider.cs:42 | A profile is found by ID exactly when its `UserProfile` key is stored and decodes. |
| HerdDataProvider.CreateProfile | Herd.Data/Providers/HerdKeyValuePairDataProvider.cs:43 | The create succeeds exactly when the counter allocates, and writes the profile's JSON, carrying the new ID, under that ID's key. Registrations and accounts observe nothing of it. |
| HerdDataProvider.UpdateProfile | Herd.Data/Providers/HerdKeyValuePairDataProvider.cs:44 | The update writes the profile's JSON under its ID. Registrations and accounts observe nothing of it. |
| HerdDataProvider.CreateAppRegistrationThenGet | Herd.Data/Providers/HerdKeyValuePairDataProvider.cs:24-26 | A created registration reads back by its new ID. |
| HerdDataProvider.UpdateAppRegistrationThenGet | Herd.Data/Providers/HerdKeyValuePairDataProvider.cs:24-27 | An updated registration reads back as written, and other IDs read as before. |
| HerdDataProvider.CreateUserThenGet | Herd.Data/Providers/HerdKeyValuePairDataProvider.cs:33-35 | A created account reads back by its new ID. |
| HerdDataProvider.UpdateUserThenGet | Herd.Data/Providers/HerdKeyValuePairDataProvider.cs:33-36 | An updated account reads back as written, and other IDs read as before. |
| HerdDataProvider.CreateProfileThenGet | Herd.Data/Providers/HerdKeyValuePairDataProvider.cs:42-43 | A created profile reads back by its new ID. |
| HerdDataProvider.UpdateProfileThenGet | Herd.Data/Providers/HerdKeyValuePairDataProvider.cs:42-44 | An updated profile reads back as written, and other IDs read as before. |
| HerdApp.ProcessCommand | Herd.Business/HerdApp.cs:138-163 | No exception escapes. The result has no errors exactly when nothing was thrown, and at most one error otherwise. Data and writes made before the exception are kept. |
| HerdApp.GetUser | Herd.Business/HerdApp.cs:30-39 | `GetUser` never fails or writes, and returns the provider's account for the ID, null included. |
| HerdApp.NewAccount | Herd.Business/HerdApp.cs:54-62 | The account to store has the command's email and the drawn salt. It has no profile or Mastodon connection yet, and the command's plain-text password passes `PasswordIs` on it. |
| HerdApp.CreateUserWork | Herd.Business/HerdApp.cs:43-72 | The work succeeds exactly when the data holds both the account and the profile, and it writes nothing unless it has set data. If the profile create throws, the account stays stored and the result data holds it with no profile. |
| HerdApp.CreateUser | Herd.Business/HerdApp.cs:41-73 | A taken email gives the user error and changes nothing. On success, the email was free and the account has the command's email, the salt, and the password hashed with that same salt. The profile has the command's names, and the account and profile point at each other. |
| HerdApp.LoginUserWork | Herd.Business/HerdApp.cs:77-88 | Login work writes nothing, and it sets the data exactly when it does not throw. |
| HerdApp.LoginUser | Herd.Business/HerdApp.cs:75-89 | Login succeeds exactly when the account found by email takes the password, and it returns that account. An unknown email and a wrong password give the same user error. Nothing is written. |
| HerdApp.GetRegistration | Herd.Business/HerdApp.cs:95-104 | `GetRegistration` never fails or writes, and returns the provider's registration for the ID, null included. |
| HerdApp.EffectiveReturnUrl | Herd.Business/HerdApp.cs:110 | The fallback URL is never blank, whatever the command holds. A return URL that is not blank is kept as it is. |
| HerdApp.GetOAuthUrlWork | Herd.Business/HerdApp.cs:108-119 | The work writes nothing, and it sets the data exactly when it does not throw. |
| HerdApp.GetOAuthUrl | Herd.Business/HerdApp.cs:106-120 | An unknown registration ID gives the "No app registration" user error. The command succeeds exactly when the registration exists and the API call returns, and its URL is the API's. Nothing is written. |
| HerdApp.GetOrCreateRegistrationWork | Herd.Business/HerdApp.cs:124-131 | The work sets the data exactly when it does not throw, and an exception leaves the provider as it was. |
| HerdApp.GetOrCreateRegistration | Herd.Business/HerdApp.cs:122-132 | An existing registration for the instance is returned and nothing is written. If none exists, the command succeeds exactly when the API registration and the store create both succeed, and it returns the created registration. |
| HerdAppProperties.CreateUserStages | Herd.Business/HerdApp.cs:45-71 | A successful `CreateUser` looked up the email and found nothing. It then stored the account and the profile, and finally stored the account again with the profile's ID. |
| HerdAppProperties.CreateUserSucceedsOnFreshEmail | Herd.Business/HerdApp.cs:45-71 | With a free email and readable account and profile counters, `CreateUser` succeeds. Storing the account leaves the profile counter's next allocation unchanged. |
| HerdAppProperties.CreateUserAdvancesUserCounter | Herd.Business/HerdApp.cs:54-71 | After a successful `CreateUser`, the user counter stands one past the new account's ID. Neither the profile create nor the account's second write moves it. |
| HerdAppProperties.CreateUserAdvancesProfileCounter | Herd.Business/HerdApp.cs:64-71 | After a successful `CreateUser`, the profile counter stands one past the new profile's ID. The account's second write does not move it. |
| HerdAppProperties.CreateUserStoresLinkedRecords | Herd.Business/HerdApp.cs:54-71 | After `CreateUser`, the returned account and profile are the stored ones, each readable by its ID. Each carries the other's ID. |
| HerdAppProperties.CreateUserThenGetUser | Herd.Business/HerdApp.cs:30-73 | The `GetUser` command returns a just-created account, profile link included. |
| HerdAppProperties.CreateUserThenFindByEmail | Herd.Business/HerdApp.cs:45-71 | After `CreateUser`, looking up the email returns exactly the new account. |
| HerdAppProperties.CreateUserThenLogin | Herd.Business/HerdApp.cs:75-89 | A user just created logs in with the same email and password, and gets that account back. |
| HerdAppProperties.CreateUserEmailUnique | Herd.Business/HerdApp.cs:45-49 | After a user is created, a second `CreateUser` with the same email gives the "already taken" user error. Whatever the password and names, it writes nothing. |
| HerdAppProperties.LoginRejectsWrongPassword | Herd.Business/HerdApp.cs:79-83 | An unknown email or a wrong password gives "Wrong email or password", and nothing is written. |
| HerdAppProperties.GetOrCreateThenGetRegistration | Herd.Business/HerdApp.cs:95-132 | A registration created by get-or-create is returned by `GetRegistration` under its new ID. |
| HerdAppProperties.GetOrCreateThenOAuthUrl | Herd.Business/HerdApp.cs:95-132 | After get-or-create registers the app, `GetOAuthURL` on the new ID writes nothing, succeeds exactly when the API returns a URL for that registration, and returns that URL. |
| HerdAppProperties.GetOrCreateRegistrationTwice | Herd.Business/HerdApp.cs:122-132 | Suppose the instance has no registration, and the API returns a registration whose `Instance` is the requested instance. Then get-or-create stores it once: a second call returns the same registration, writes nothing, and does not call the API. |
| HerdAppProperties.GetOrCreateRegistrationWritesOne | Herd.Business/HerdApp.cs:122-132 | A get-or-create that registers an app writes only the registration counter and the new registration. Accounts and profiles observe nothing of it. |
| HerdAppProperties.OAuthUrlIgnoresFallback | Herd.Business/HerdApp.cs:110-117 | For a blank return URL, the fallback is the out-of-band URN, which is never what the command received. The API is still asked with the command's own blank URL, and the result is its answer. |

## Left out

- The `lock` around ID allocation. The model is sequential, so allocation is atomic by construction. Two providers racing on the same counter are not modelled.
- JSON serialisation and `GetEntityName`.
  - Each entity type's JSON is an arbitrary `Codec` of encode and decode functions. Decode returns null where `ParseJson` would throw.
  - Round-trip lemmas assume that decoding an encoded record gives the record back.
  - Type names are the constants `AppRegistration`, `UserAccount` and `UserProfile`.
- The counter's JSON reader is modelled with the same grammar as `long.TryParse`: white space, an optional sign, then decimal digits within the long range. Newtonsoft's exact number grammar, and the wording of its exception message, are not part of this model.
- Culture: `long.TryParse` and `long.ToString()` (the ID text at HerdKeyValuePairDataProvider.cs:101 and 114) follow the current culture, including its negative sign. The model uses the invariant culture for both. Other `long.TryParse` details beyond the default number style, such as trailing NUL characters, are not modelled either.
- The delimiter is one character, and IDs are assumed not to contain it (no digit and no `-`). The provider takes a string delimiter; multi-character delimiters are not modelled.
- The backend's own behaviour is outside the model: the file provider's I/O, failures of `GetAllKeys` or `WriteKey`, and the order in which it lists keys. The model lists stored keys in the order they were first written. A failed `ReadKey` is a missing key. `GetAllKeys(root)` is modelled as listing the stored keys that begin with the root followed by the delimiter; the backend interface leaves the matching rule to each backend. `CreateIsolation` and `UpdateIsolation` for arbitrary type names rely on this choice: under a plain prefix match, a type named "User" would list the keys of a type named "UserAccount". Herd's three type names are not affected.
- Password hashing (`Hashed`) and `PasswordIs` are not part of this model. Hashing is a function parameter, and `PasswordIs` compares the stored salted password with the plain text hashed under the stored salt.
- The random salt generator is a parameter: the salt is an arbitrary 32-bit integer.
- `MastodonApiWrapper.RegisterApp` and `GetOAuthUrl` are network calls, modelled as function parameters that may throw. The wrapper's `AppRegistration` property becomes an argument of the call.
- `ConversionExtensions`, the MVC controllers, the Angular client, logging, and the command and result-data classes are not modelled. Only the fields that the commands read or write are kept.
- C# null is not modelled inside commands and records, with one exception: the return URL of `GetOAuthURL`, which may be null. This covers null strings and null nested objects alike. For example, an account whose `Security` is null would make the password check at HerdApp.cs:80 throw a null-reference exception, which `ProcessCommand` reports as a system error; the model's accounts always carry a security record.
- `HerdAppCommandResult.Success` is taken to mean "no errors"; its definition is not part of this model.
- HerdApp.GetUser: the contract states only that the provider's answer is passed through. `HerdAppProperties.CreateUserThenGetUser` gives the read-back property.
- HerdAppProperties.GetOrCreateRegistrationTwice: holds only when `RegisterApp` returns a registration whose `Instance` is the instance asked for. `GetOrCreateRegistration` never checks this. If the API answered for another instance, the next lookup would not find the stored registration, and a second call would register and store again.
- HerdApp.GetRegistration: the contract states only that the provider's answer is passed through. `HerdAppProperties.GetOrCreateThenGetRegistration` gives the read-back property.

Two behaviours of the code a reader may not expect:

- **Corrupt records.** An unreadable record in the enumeration is not skipped: it is a null that reaches the predicate. Every predicate the provider passes reads a field of its argument, so a lookup that meets such a null before a match throws a null reference exception. `CommandResult` reports that exception as a system error.
- **`GetOAuthURL` return URL.** `GetOAuthURL` computes the fallback return URL and then does not use it. The API call receives the command's own return URL, as `HerdAppProperties.OAuthUrlIgnoresFallback` states.

The repository's unit tests were written against a later revision of the application and data classes, with other record names and constructors. The model follows `HerdApp.cs` and the provider.

=== FILE: dotnet_text.dfy ===
/**
 * The parts of .NET's integer, character and string behaviour the store relies on:
 * the `long` range and its unchecked increment, `char.IsWhiteSpace`,
 * `string.IsNullOrWhiteSpace`, `long.ToString()`, `long.TryParse` with the default
 * number style, and the last piece of `string.Split`.
 */
module DotNetText {
  import opened Nullable

  const MinLong: int := -0x8000_0000_0000_0000
  const MaxLong: int := 0x7FFF_FFFF_FFFF_FFFF

  /** System.Int64, the type of every entity ID. */
  type Long = x: int | MinLong <= x <= MaxLong

  const MinInt: int := -0x8000_0000
  const MaxInt: int := 0x7FFF_FFFF

  /** System.Int32. */
  type Int32 = x: int | MinInt <= x <= MaxInt

  /**
   * `x + 1` on a long in C#'s default unchecked context: the long equal to x + 1
   * modulo 2^64, so MaxLong wraps to MinLong.
   */
  function UncheckedIncrement(x: Long): (r: Long)
    ensures r % 0x1_0000_0000_0000_0000 == (x + 1) % 0x1_0000_0000_0000_0000
    ensures x < MaxLong ==> r == x + 1
  {
    if x == MaxLong then MinLong else x + 1
  }

  /** `char.IsWhiteSpace`: the Unicode separators plus U+0009..U+000D and U+0085. */
  predicate IsWhiteSpace(c: char)
  {
    || c == ' '
    || '\t' <= c <= '\r'
    || c == '\U{0085}'
    || c == '\U{00A0}'
    || c == '\U{1680}'
    || '\U{2000}' <= c <= '\U{200A}'
    || c == '\U{2028}'
    || c == '\U{2029}'
    || c == '\U{202F}'
    || c == '\U{205F}'
    || c == '\U{3000}'
  }

  /** `string.IsNullOrWhiteSpace`: null, empty, or white space throughout. */
  predicate IsNullOrWhiteSpace(s: Option<string>)
    ensures s.None? || s == Some("") ==> IsNullOrWhiteSpace(s)
    ensures s.Some? && |s.value| > 0 && !IsWhiteSpace(s.value[0]) ==> !IsNullOrWhiteSpace(s)
  {
    match s
    case None => true
    case Some(t) => forall i :: 0 <= i < |t| ==> IsWhiteSpace(t[i])
  }

  /** The white space `NumberStyles.Integer` lets `long.TryParse` skip: U+0009..U+000D and U+0020. */
  predicate IsNumberWhite(c: char)
  {
    c == ' ' || '\t' <= c <= '\r'
  }

  predicate IsDigit(c: char)
  {
    '0' <= c <= '9'
  }

  predicate AllDigits(s: string)
  {
    forall i :: 0 <= i < |s| ==> IsDigit(s[i])
  }

  predicate IsAsciiLetter(c: char)
  {
    'A' <= c <= 'Z' || 'a' <= c <= 'z'
  }

  function Digit(n: nat): char
    requires n < 10
  {
    (n + '0' as int) as char
  }

  function DigitValue(c: char): nat
    requires IsDigit(c)
  {
    c as int - '0' as int
  }

  /** The decimal digits of `n`, without leading zeros. */
  function ShowNat(n: nat): (r: string)
    ensures |r| > 0 && AllDigits(r)
  {
    if n < 10 then [Digit(n)] else ShowNat(n / 10) + [Digit(n % 10)]
  }

  /** `long.ToString()` under the invariant culture. */
  function Show(n: int): (r: string)
    ensures |r| > 0 && IsDigit(r[|r| - 1])
    ensures forall i :: 0 <= i < |r| ==> IsDigit(r[i]) || r[i] == '-'
    ensures IsDigit(r[0]) || r[0] == '-'
  {
    if n < 0 then "-" + ShowNat(-n) else ShowNat(n)
  }

  /** The value of a string of decimal digits; `None` when some character is not a digit. */
  function DigitsValue(s: string): Option<nat>
  {
    if |s| == 0 then Some(0)
    else if !IsDigit(s[|s| - 1]) then None
    else
      match DigitsValue(s[..|s| - 1])
      case None => None
      case Some(v) => Some(v * 10 + DigitValue(s[|s| - 1]))
  }

  function TrimStart(s: string): (r: string)
    ensures |r| <= |s| && r == s[|s| - |r|..]
    ensures |r| > 0 ==> !IsNumberWhite(r[0])
  {
    if |s| > 0 && IsNumberWhite(s[0]) then TrimStart(s[1..]) else s
  }

  function TrimEnd(s: string): (r: string)
    ensures |r| <= |s| && r == s[..|r|]
    ensures |r| > 0 ==> !IsNumberWhite(r[|r| - 1])
  {
    if |s| > 0 && IsNumberWhite(s[|s| - 1]) then TrimEnd(s[..|s| - 1]) else s
  }

  /** One or more digits, negated when a minus sign preceded them, that fit in a long. */
  function ParseDigits(ds: string, negative: bool): Option<Long>
  {
    if |ds| == 0 then None
    else
      match DigitsValue(ds)
      case None => None
      case Some(m) =>
        var v: int := if negative then -(m as int) else m;
        if MinLong <= v <= MaxLong then Some(v) else None
  }

  /**
   * `long.TryParse(s, out v)` with `NumberStyles.Integer` and the invariant culture:
   * surrounding white space, an optional sign, then one or more decimal digits whose
   * value fits in a long.  `None` is a `false` return; in particular empty or blank
   * text is never a long.
   */
  function TryParseLong(s: string): (r: Option<Long>)
    ensures (forall i :: 0 <= i < |s| ==> IsWhiteSpace(s[i])) ==> r.None?
  {
    var t := TrimEnd(TrimStart(s));
    BlankTrimsToNonDigits(s);
    if |t| > 0 && t[0] == '-' then ParseDigits(t[1..], true)
    else if |t| > 0 && t[0] == '+' then ParseDigits(t[1..], false)
    else ParseDigits(t, false)
  }

  /**
   * What trimming leaves of text made only of white space, if anything, still starts
   * with a white-space character, so it is neither a sign nor a run of digits.
   */
  lemma BlankTrimsToNonDigits(s: string)
    ensures var t := TrimEnd(TrimStart(s));
            (forall i :: 0 <= i < |s| ==> IsWhiteSpace(s[i])) && |t| > 0 ==>
              IsWhiteSpace(t[0]) && DigitsValue(t) == None
  {
    var t := TrimEnd(TrimStart(s));
    if (forall i :: 0 <= i < |s| ==> IsWhiteSpace(s[i])) && |t| > 0 {
      assert t[0] == s[|s| - |TrimStart(s)|];
      DigitsValueFirstDigit(t);
    }
  }

  lemma {:induction false} DigitsValueShowNat(n: nat)
    ensures DigitsValue(ShowNat(n)) == Some(n)
  {
    if n >= 10 {
      var s := ShowNat(n);
      assert s[..|s| - 1] == ShowNat(n / 10);
      DigitsValueShowNat(n / 10);
    }
  }

  lemma TrimShow(n: int)
    ensures TrimEnd(TrimStart(Show(n))) == Show(n)
  {
    var s := Show(n);
    assert !IsNumberWhite(s[0]);
    assert TrimStart(s) == s;
    assert !IsNumberWhite(s[|s| - 1]);
  }

  /** Formatting a long and parsing it back gives the same long. */
  lemma TryParseShow(n: Long)
    ensures TryParseLong(Show(n)) == Some(n)
  {
    var s := Show(n);
    TrimShow(n);
    if n < 0 {
      var m: nat := -(n as int);
      assert s[1..] == ShowNat(m);
      DigitsValueShowNat(m);
      assert ParseDigits(s[1..], true) == Some(n);
    } else {
      DigitsValueShowNat(n);
      assert ParseDigits(s, false) == Some(n);
    }
  }

  /** A digit string holds only digits, so one that starts with anything else has no value. */
  lemma {:induction false} DigitsValueFirstDigit(s: string)
    requires |s| > 0 && !IsDigit(s[0])
    ensures DigitsValue(s) == None
  {
    if |s| > 1 {
      DigitsValueFirstDigit(s[..|s| - 1]);
    }
  }

  /** A string that starts with a letter is never a long. */
  lemma TryParseRejectsLetter(s: string)
    requires |s| > 0 && IsAsciiLetter(s[0])
    ensures TryParseLong(s) == None
  {
    assert TrimStart(s) == s;
    var t := TrimEnd(s);
    if |t| > 0 {
      assert t[0] == s[0];
      DigitsValueFirstDigit(t);
    }
  }

  predicate StartsWith(s: string, prefix: string)
  {
    |prefix| <= |s| && s[..|prefix|] == prefix
  }

  /** A common first part can be dropped from both sides of a prefix test. */
  lemma StartsWithCancel(p: string, x: string, y: string)
    requires StartsWith(p + x, p + y)
    ensures StartsWith(x, y)
  {
    assert (p + x)[..|p| + |y|][|p|..] == x[..|y|];
    assert (p + y)[|p|..] == y;
  }

  /**
   * `s.Split(d).Last()`: the longest suffix of `s` free of `d`, that is, everything
   * after the last `d`, or all of `s` when it holds no `d`.
   */
  function LastSegment(s: string, d: char): (r: string)
    ensures |r| <= |s| && r == s[|s| - |r|..]
    ensures d !in r
    ensures |r| < |s| ==> s[|s| - |r| - 1] == d
  {
    if |s| == 0 then ""
    else if s[|s| - 1] == d then ""
    else
      var init := s[..|s| - 1];
      var l := LastSegment(init, d);
      assert s[|s| - |l| - 1..] == init[|init| - |l|..] + [s[|s| - 1]];
      assert |l| < |init| ==> s[|s| - |l| - 2] == init[|init| - |l| - 1];
      l + [s[|s| - 1]]
  }

  /**
   * Joining with `d` and taking the last piece: the piece is a suffix of the text after
   * the joining delimiter, and all of it when that text holds no delimiter.
   */
  lemma LastSegmentAfterDelimiter(p: string, t: string, d: char)
    ensures var r := LastSegment(p + [d] + t, d);
            |r| <= |t| && r == t[|t| - |r|..] && (d !in t ==> r == t)
  {
    var s := p + [d] + t;
    var r := LastSegment(s, d);
    assert s[|p|] == d;
    assert s[|s| - |r|..] == t[|t| - |r|..];
  }

  /** Two delimiter-free segments, each followed by the delimiter, are prefix-related only when equal. */
  lemma DelimitedPrefix(a: string, b: string, x: string, d: char)
    requires d !in a && d !in b
    requires StartsWith(a + [d] + x, b + [d])
    ensures a == b
  {
    var s := a + [d] + x;
    // At the shorter length, one side holds the delimiter exactly when the other does.
    var n := if |a| < |b| then |a| else |b|;
    assert s[n] == (b + [d])[n];
    assert (s[n] == d) == (n == |a|);
    assert ((b + [d])[n] == d) == (n == |b|);
    assert s[..|a|] == a;
  }
}

=== FILE: entity_keys.dfy ===
/**
 * How the key-value data provider names things in the flat key space: the root key of
 * an entity type, the key of one entity, and the key of the type's next-ID counter,
 * each joined with the provider's delimiter; and the enumeration filter that keeps
 * only keys whose last segment is a long.
 */
module EntityKeys {
  import opened Nullable
  import opened DotNetText
  import opened KeyValueBackend

  /** Last segment of every counter key. */
  const NextIdSegment := "NextID"

  /**
   * `BuildEntityRootKey`: `string.Join(d, root, name)`, a key under the provider's
   * root whose last segment is the type name.
   */
  function EntityRootKey(root: string, d: char, name: string): (r: string)
    ensures Under(r, root, d)
  {
    assert (root + [d] + name)[..|root| + 1] == root + [d];
    root + [d] + name
  }

  /**
   * `BuildEntityKey`: `string.Join(d, rootKey, id)`, a key under the type's root key
   * whose last segment is the ID's decimal text.
   */
  function EntityKey(root: string, d: char, name: string, id: Long): (r: string)
    ensures Under(r, EntityRootKey(root, d, name), d)
  {
    var rootKey := EntityRootKey(root, d, name);
    assert (rootKey + [d] + Show(id))[..|rootKey| + 1] == rootKey + [d];
    rootKey + [d] + Show(id)
  }

  /**
   * `BuildNextIdKey`: `string.Join(d, root, name, "NextID")`, a key under the type's
   * root key whose last segment is "NextID".
   */
  function NextIdKey(root: string, d: char, name: string): (r: string)
    ensures Under(r, EntityRootKey(root, d, name), d)
  {
    var rootKey := EntityRootKey(root, d, name);
    assert (rootKey + [d] + NextIdSegment)[..|rootKey| + 1] == rootKey + [d];
    rootKey + [d] + NextIdSegment
  }

  /**
   * The enumeration filter: `long.TryParse(key.Split(d).Last(), out _)`.  A key whose
   * last segment is empty or starts with a letter, as a counter key's does, fails it.
   */
  predicate IsInstanceKey(key: string, d: char)
    ensures |LastSegment(key, d)| == 0 ==> !IsInstanceKey(key, d)
    ensures |LastSegment(key, d)| > 0 && IsAsciiLetter(LastSegment(key, d)[0]) ==> !IsInstanceKey(key, d)
  {
    var segment := LastSegment(key, d);
    SegmentNotLong(segment);
    TryParseLong(segment).Some?
  }

  /** Empty text, and text that starts with a letter, are not longs. */
  lemma SegmentNotLong(segment: string)
    ensures |segment| == 0 || IsAsciiLetter(segment[0]) ==> TryParseLong(segment) == None
  {
    if |segment| > 0 && IsAsciiLetter(segment[0]) {
      TryParseRejectsLetter(segment);
    }
  }

  /** A delimiter that cannot occur in the decimal form of an ID. */
  predicate ValidDelimiter(d: char)
  {
    !IsDigit(d) && d != '-'
  }

  /** Every entity key lies under its type's root key, and passes the enumeration filter. */
  lemma EntityKeyIsInstance(root: string, d: char, name: string, id: Long)
    requires ValidDelimiter(d)
    ensures LastSegment(EntityKey(root, d, name, id), d) == Show(id)
    ensures IsInstanceKey(EntityKey(root, d, name, id), d)
    ensures Under(EntityKey(root, d, name, id), EntityRootKey(root, d, name), d)
  {
    LastSegmentAfterDelimiter(EntityRootKey(root, d, name), Show(id), d);
    TryParseShow(id);
  }

  /** The counter key lies under its type's root key, but never passes the enumeration filter. */
  lemma NextIdKeyIsNotInstance(root: string, d: char, name: string)
    ensures !IsInstanceKey(NextIdKey(root, d, name), d)
    ensures Under(NextIdKey(root, d, name), EntityRootKey(root, d, name), d)
  {
    var p := EntityRootKey(root, d, name);
    LastSegmentAfterDelimiter(p, NextIdSegment, d);
    var r := LastSegment(p + [d] + NextIdSegment, d);
    NextIdSuffixIsNotLong(r);
    assert (p + [d] + NextIdSegment)[..|p + [d]|] == p + [d];
  }

  /** No tail of "NextID", the empty one included, parses as a long. */
  lemma NextIdSuffixIsNotLong(r: string)
    requires |r| <= |NextIdSegment| && r == NextIdSegment[|NextIdSegment| - |r|..]
    ensures TryParseLong(r) == None
  {
    if |r| > 0 {
      assert IsAsciiLetter(r[0]);
      TryParseRejectsLetter(r);
    } else {
      assert r == [];
      assert TrimStart(r) == [];
      assert TrimEnd([]) == [];
    }
  }

  /** Within one type, record keys are equal exactly when the IDs are, whatever the delimiter. */
  lemma EntityKeyInjectiveWithinType(root: string, d: char, name: string, i: Long, j: Long)
    ensures EntityKey(root, d, name, i) == EntityKey(root, d, name, j) <==> i == j
  {
    if EntityKey(root, d, name, i) == EntityKey(root, d, name, j) {
      var p := EntityRootKey(root, d, name) + [d];
      assert Show(i) == EntityKey(root, d, name, i)[|p|..];
      assert Show(j) == EntityKey(root, d, name, j)[|p|..];
      TryParseShow(i);
      TryParseShow(j);
    }
  }

  /** Entity keys name one entity: the same key means the same type and the same ID. */
  lemma EntityKeyInjective(root: string, d: char, a: string, b: string, i: Long, j: Long)
    requires ValidDelimiter(d) && d !in a && d !in b
    ensures EntityKey(root, d, a, i) == EntityKey(root, d, b, j) <==> a == b && i == j
  {
    if EntityKey(root, d, a, i) == EntityKey(root, d, b, j) {
      SameEntityKeySameId(root, d, a, b, i, j);
      var p := root + [d];
      assert EntityKey(root, d, a, i) == p + (a + [d] + Show(i));
      assert EntityKey(root, d, b, j) == p + (b + [d] + Show(j));
      assert StartsWith(p + (a + [d] + Show(i)), p + (b + [d]));
      StartsWithCancel(p, a + [d] + Show(i), b + [d]);
      DelimitedPrefix(a, b, Show(i), d);
    }
  }

  lemma SameEntityKeySameId(root: string, d: char, a: string, b: string, i: Long, j: Long)
    requires ValidDelimiter(d)
    requires EntityKey(root, d, a, i) == EntityKey(root, d, b, j)
    ensures i == j
  {
    EntityKeyIsInstance(root, d, a, i);
    EntityKeyIsInstance(root, d, b, j);
    TryParseShow(i);
    TryParseShow(j);
  }

  /**
   * A counter key is never an entity key, whatever the two types and the delimiter:
   * an entity key ends in the last digit of its ID, a counter key in the 'D' of "NextID".
   */
  lemma EntityKeyIsNotNextIdKey(root: string, d: char, a: string, b: string, i: Long)
    ensures EntityKey(root, d, a, i) != NextIdKey(root, d, b)
  {
    var e := EntityKey(root, d, a, i);
    var n := NextIdKey(root, d, b);
    if |e| == |n| {
      assert e[|e| - 1] == Show(i)[|Show(i)| - 1];
      assert n[|n| - 1] == 'D';
    }
  }

  /**
   * A type's entity keys and its counter key differ under every delimiter: they share
   * the prefix up to the last joining delimiter, and after it an ID's text starts with
   * a digit or a minus sign where the counter's starts with a letter.
   */
  lemma EntityKeyIsNotOwnNextIdKey(root: string, d: char, name: string, id: Long)
    ensures EntityKey(root, d, name, id) != NextIdKey(root, d, name)
  {
    var p := EntityRootKey(root, d, name) + [d];
    assert EntityKey(root, d, name, id)[|p|] == Show(id)[0];
    assert NextIdKey(root, d, name)[|p|] == 'N';
  }

  /** Counter keys of different types differ. */
  lemma NextIdKeyInjective(root: string, d: char, a: string, b: string)
    requires d !in a && d !in b
    ensures NextIdKey(root, d, a) == NextIdKey(root, d, b) <==> a == b
  {
    if NextIdKey(root, d, a) == NextIdKey(root, d, b) {
      var p := root + [d];
      assert NextIdKey(root, d, a) == p + (a + [d] + NextIdSegment);
      assert NextIdKey(root, d, b) == p + (b + [d] + NextIdSegment);
      assert StartsWith(p + (a + [d] + NextIdSegment), p + (b + [d]));
      StartsWithCancel(p, a + [d] + NextIdSegment, b + [d]);
      DelimitedPrefix(a, b, NextIdSegment, d);
    }
  }

  /**
   * Namespace isolation: a key built under the root key of type `a` (an entity key or
   * the counter key) is never enumerated under the root key of another type `b`, as
   * long as neither type name holds the delimiter.
   */
  lemma OtherNamespace(root: string, d: char, a: string, b: string, rest: string)
    requires d !in a && d !in b && a != b
    ensures !Under(EntityRootKey(root, d, a) + [d] + rest, EntityRootKey(root, d, b), d)
  {
    var p := root + [d];
    assert EntityRootKey(root, d, a) + [d] + rest == p + (a + [d] + rest);
    assert EntityRootKey(root, d, b) + [d] == p + (b + [d]);
    if Under(EntityRootKey(root, d, a) + [d] + rest, EntityRootKey(root, d, b), d) {
      StartsWithCancel(p, a + [d] + rest, b + [d]);
      DelimitedPrefix(a, b, rest, d);
    }
  }
}

=== FILE: entity_store.dfy ===
/**
 * The generic machinery of the key-value data provider: get an entity by ID, by key or
 * by predicate, enumerate all entities of a type, create an entity with the next ID of
 * its type, and overwrite an entity.  Every operation is a pure function of the store;
 * one that writes returns the new store.
 */
module EntityStore {
  import opened Nullable
  import opened Exceptions
  import opened DotNetText
  import opened Sequences
  import opened KeyValueBackend
  import opened EntityKeys

  /** A stored record: its ID, plus the fields the store treats as an opaque bag. */
  datatype Entity<+F> = Entity(id: Long, fields: F)

  /**
   * The JSON of one entity type: `SerializeAsJson` and `ParseJson<T>`, the latter
   * `None` where it throws.
   */
  datatype Codec<!F> = Codec(encode: Entity<F> -> string, decode: string -> Option<Entity<F>>)

  /** Every record serialises to text that parses back to the same record. */
  ghost predicate RoundTrips<F(!new)>(c: Codec<F>)
  {
    forall e :: c.decode(c.encode(e)) == Some(e)
  }

  /** An entity type: the name `GetEntityName` gives it, and its JSON. */
  datatype EntityType<!F> = EntityType(name: string, codec: Codec<F>)

  /** A key-value data provider: its root key, its delimiter and its backend. */
  datatype Store = Store(root: string, delim: char, backend: Backend)
  {
    ghost predicate Valid()
    {
      ValidDelimiter(delim) && backend.Valid()
    }
  }

  /** The type name holds no delimiter, so the type's keys stay in their own namespace. */
  predicate Namespaced<F>(t: EntityType<F>, s: Store)
  {
    s.delim !in t.name
  }

  function RootKeyOf<F>(t: EntityType<F>, s: Store): string
  {
    EntityRootKey(s.root, s.delim, t.name)
  }

  function EntityKeyOf<F>(t: EntityType<F>, s: Store, id: Long): string
  {
    EntityKey(s.root, s.delim, t.name, id)
  }

  function NextIdKeyOf<F>(t: EntityType<F>, s: Store): string
  {
    NextIdKey(s.root, s.delim, t.name)
  }

  /** `GetEntity<T>(string key)`: a failed read or a failed parse is "not found". */
  function GetEntityByKey<F>(t: EntityType<F>, s: Store, key: string): (r: Option<Entity<F>>)
    ensures key !in s.backend.values ==> r.None?
    ensures key in s.backend.values ==> r == t.codec.decode(s.backend.values[key])
  {
    match ReadKey(s.backend, key)
    case None => None
    case Some(json) => t.codec.decode(json)
  }

  /** `GetEntity<T>(long id)`: never throws; absent or unreadable is `None`. */
  function GetEntity<F>(t: EntityType<F>, s: Store, id: Long): (r: Option<Entity<F>>)
    ensures EntityKeyOf(t, s, id) !in s.backend.values ==> r.None?
    ensures r.Some? <==>
              EntityKeyOf(t, s, id) in s.backend.values
              && t.codec.decode(s.backend.values[EntityKeyOf(t, s, id)]).Some?
    ensures r.Some? ==> r == t.codec.decode(s.backend.values[EntityKeyOf(t, s, id)])
  {
    GetEntityByKey(t, s, EntityKeyOf(t, s, id))
  }

  lemma InstanceKeysDistinct<F>(t: EntityType<F>, s: Store)
    ensures s.backend.Valid() ==>
              Distinct(Filter(GetAllKeys(s.backend, RootKeyOf(t, s), s.delim), k => IsInstanceKey(k, s.delim)))
  {
    if s.backend.Valid() {
      FilterDistinct(GetAllKeys(s.backend, RootKeyOf(t, s), s.delim), k => IsInstanceKey(k, s.delim));
    }
  }

  /**
   * The keys `GetAllEntities` visits, in backend order: the keys under the type's root
   * key whose last segment is a long.  The type's own counter key is never among them.
   */
  function InstanceKeys<F>(t: EntityType<F>, s: Store): (r: seq<string>)
    ensures s.backend.Valid() ==>
              forall k :: k in r <==>
                k in s.backend.values && Under(k, RootKeyOf(t, s), s.delim) && IsInstanceKey(k, s.delim)
    ensures s.backend.Valid() ==> Distinct(r)
    ensures NextIdKeyOf(t, s) !in r
  {
    NextIdKeyIsNotInstance(s.root, s.delim, t.name);
    InstanceKeysDistinct(t, s);
    Filter(GetAllKeys(s.backend, RootKeyOf(t, s), s.delim), k => IsInstanceKey(k, s.delim))
  }

  /**
   * `GetAllEntities<T>()`: one element per enumerated key, in order; a record that
   * cannot be read or parsed stays in the sequence as `None` (C# null).
   */
  function GetAllEntities<F>(t: EntityType<F>, s: Store): (r: seq<Option<Entity<F>>>)
    ensures |r| == |InstanceKeys(t, s)|
    ensures forall i :: 0 <= i < |r| ==> r[i] == GetEntityByKey(t, s, InstanceKeys(t, s)[i])
  {
    var keys := InstanceKeys(t, s);
    seq(|keys|, i requires 0 <= i < |keys| => GetEntityByKey(t, s, keys[i]))
  }

  /** Every element before index `i` is a record the predicate rejects. */
  ghost predicate PassedBefore<E>(items: seq<Option<E>>, matches: E -> bool, i: int)
    requires 0 <= i <= |items|
  {
    forall j :: 0 <= j < i ==> items[j].Some? && !matches(items[j].value)
  }

  /** Index `i` holds the first record the predicate accepts. */
  ghost predicate FirstMatchAt<E>(items: seq<Option<E>>, matches: E -> bool, i: int)
  {
    0 <= i < |items| && items[i].Some? && matches(items[i].value) && PassedBefore(items, matches, i)
  }

  /** Index `i` holds a null that the scan reaches before any match. */
  ghost predicate FirstNullAt<E>(items: seq<Option<E>>, matches: E -> bool, i: int)
  {
    0 <= i < |items| && items[i].None? && PassedBefore(items, matches, i)
  }

  lemma StopShift<E>(items: seq<Option<E>>, matches: E -> bool)
    requires |items| > 0 && items[0].Some? && !matches(items[0].value)
    ensures forall i :: FirstMatchAt(items, matches, i) ==> i > 0 && FirstMatchAt(items[1..], matches, i - 1)
    ensures forall i :: FirstNullAt(items, matches, i) ==> i > 0 && FirstNullAt(items[1..], matches, i - 1)
    ensures PassedBefore(items, matches, |items|) ==> PassedBefore(items[1..], matches, |items| - 1)
    ensures PassedBefore(items[1..], matches, |items| - 1) ==> PassedBefore(items, matches, |items|)
  {
    forall i | FirstMatchAt(items, matches, i)
      ensures FirstMatchAt(items[1..], matches, i - 1)
    {
      assert items[1..][i - 1] == items[i];
    }
  }

  /**
   * LINQ's `FirstOrDefault(matches)` over records of which some may be null, with a
   * predicate that reads a field of its argument: the first accepted record; a null
   * reached before any match throws NullReferenceException; `None` when the scan
   * ends without a match.
   */
  function FirstOrDefault<E>(items: seq<Option<E>>, matches: E -> bool): (r: Outcome<Option<E>>)
    ensures PassedBefore(items, matches, |items|) <==> r == Returned(None)
    ensures forall i :: FirstMatchAt(items, matches, i) ==> r == Returned(items[i])
    ensures forall i :: FirstNullAt(items, matches, i) ==> r == Threw(NullReference)
    ensures r.Returned? && r.value.Some? ==> matches(r.value.value) && r.value in items
    ensures r.Threw? ==> r.exception == NullReference && None in items
    decreases |items|
  {
    if |items| == 0 then Returned(None)
    else
      match items[0]
      case None => Threw(NullReference)
      case Some(e) =>
        if matches(e) then Returned(Some(e))
        else
          StopShift(items, matches);
          FirstOrDefault(items[1..], matches)
  }

  /**
   * `GetEntity<T>(Func<T, bool> matches)`: the first record of the enumeration that
   * `matches` accepts.  Every predicate the provider passes reads a field of its
   * argument, so an unreadable record met before a match raises NullReferenceException.
   */
  function GetEntityWhere<F>(t: EntityType<F>, s: Store, matches: Entity<F> -> bool): (r: Outcome<Option<Entity<F>>>)
    ensures r.Returned? && r.value.Some? ==> matches(r.value.value) && r.value in GetAllEntities(t, s)
    ensures r.Threw? ==> r.exception == NullReference
  {
    FirstOrDefault(GetAllEntities(t, s), matches)
  }

  /**
   * The ID allocation inside `CreateEntity`'s lock: read the type's counter (a failed
   * read is null), take 1 when it is null or white space, and parse it as a long,
   * which throws when the counter holds anything else.
   */
  function AllocateId<F>(t: EntityType<F>, s: Store): (r: Outcome<Long>)
    ensures IsNullOrWhiteSpace(ReadKey(s.backend, NextIdKeyOf(t, s))) ==> r == Returned(1)
    ensures !IsNullOrWhiteSpace(ReadKey(s.backend, NextIdKeyOf(t, s))) ==>
              var text := s.backend.values[NextIdKeyOf(t, s)];
              && (r.Returned? <==> TryParseLong(text).Some?)
              && (r.Returned? ==> TryParseLong(text) == Some(r.value))
              && (r.Threw? ==> r.exception == CounterParseFailure(text))
  {
    var stored := ReadKey(s.backend, NextIdKeyOf(t, s));
    if IsNullOrWhiteSpace(stored) then Returned(1)  // the JSON of 1, parsed back
    else
      match TryParseLong(stored.value)
      case Some(id) => Returned(id)
      case None => Threw(CounterParseFailure(stored.value))
  }

  /** A newly created entity and the store that now holds it. */
  datatype Created<F> = Created(entity: Entity<F>, store: Store)

  /**
   * `UpdateEntity`: overwrite the key of `e.ID` with `e`'s JSON.  No existence check:
   * an ID never created is simply written.
   */
  function UpdateEntity<F>(t: EntityType<F>, s: Store, e: Entity<F>): (r: Store)
    ensures r.root == s.root && r.delim == s.delim
    ensures ReadKey(r.backend, EntityKeyOf(t, s, e.id)) == Some(t.codec.encode(e))
    ensures forall k :: k != EntityKeyOf(t, s, e.id) ==> ReadKey(r.backend, k) == ReadKey(s.backend, k)
    ensures s.Valid() ==> r.Valid()
  {
    s.(backend := WriteKey(s.backend, EntityKeyOf(t, s, e.id), t.codec.encode(e)))
  }

  /**
   * `CreateEntity`: allocate the type's next ID, write the counter back as that ID plus
   * one (wrapping like C#'s unchecked arithmetic), then store the entity under its new
   * ID.  A counter that is not a long throws and nothing is written.
   */
  function CreateEntity<F>(t: EntityType<F>, s: Store, e: Entity<F>): (r: Outcome<Created<F>>)
    ensures r.Returned? <==> AllocateId(t, s).Returned?
    ensures r.Threw? ==> r.exception == AllocateId(t, s).exception
    ensures r.Returned? ==> r.value.entity == e.(id := AllocateId(t, s).value)
    ensures r.Returned? ==> r.value.store.root == s.root && r.value.store.delim == s.delim
    ensures r.Returned? ==>
              ReadKey(r.value.store.backend, NextIdKeyOf(t, s)) == Some(Show(UncheckedIncrement(r.value.entity.id)))
    ensures r.Returned? ==>
              ReadKey(r.value.store.backend, EntityKeyOf(t, s, r.value.entity.id)) == Some(t.codec.encode(r.value.entity))
    ensures r.Returned? ==>
              forall k :: k != NextIdKeyOf(t, s) && k != EntityKeyOf(t, s, r.value.entity.id) ==>
                ReadKey(r.value.store.backend, k) == ReadKey(s.backend, k)
    ensures r.Returned? && s.Valid() ==> r.value.store.Valid()
  {
    match AllocateId(t, s)
    case Threw(x) => Threw(x)
    case Returned(id) =>
      var counted := s.(backend := WriteKey(s.backend, NextIdKeyOf(t, s), Show(UncheckedIncrement(id))));
      var entity := e.(id := id);
      EntityKeyIsNotOwnNextIdKey(s.root, s.delim, t.name, id);
      Returned(Created(entity, UpdateEntity(t, counted, entity)))
  }
}

=== FILE: entity_store_properties.dfy ===
/**
 * What the key-value data provider guarantees across calls: consecutive IDs per type,
 * a counter one ahead of the last issued ID, create/update round trips, counters kept
 * out of enumeration, first-match lookup, and isolation between entity types.
 */
module EntityStoreProperties {
  import opened Nullable
  import opened Exceptions
  import opened DotNetText
  import opened Sequences
  import opened KeyValueBackend
  import opened EntityKeys
  import opened EntityStore

  /** The counter is one more than the last issued ID: the next allocation yields it. */
  lemma CreateAdvancesCounter<F>(t: EntityType<F>, s: Store, e: Entity<F>)
    requires CreateEntity(t, s, e).Returned?
    ensures var c := CreateEntity(t, s, e).value;
            AllocateId(t, c.store) == Returned(UncheckedIncrement(c.entity.id))
  {
    var c := CreateEntity(t, s, e).value;
    assert NextIdKeyOf(t, c.store) == NextIdKeyOf(t, s);
    AllocateShownId(t, c.store, UncheckedIncrement(c.entity.id));
  }

  /** A counter holding the text of `n` allocates `n`. */
  lemma AllocateShownId<F>(t: EntityType<F>, s: Store, n: Long)
    requires ReadKey(s.backend, NextIdKeyOf(t, s)) == Some(Show(n))
    ensures AllocateId(t, s) == Returned(n)
  {
    assert !IsWhiteSpace(Show(n)[0]);
    TryParseShow(n);
  }

  /** Two creates of one type in a row: the second succeeds and gets the next ID. */
  lemma CreateTwiceConsecutive<F>(t: EntityType<F>, s: Store, e1: Entity<F>, e2: Entity<F>)
    requires CreateEntity(t, s, e1).Returned?
    ensures var c1 := CreateEntity(t, s, e1).value;
            var c2 := CreateEntity(t, c1.store, e2);
            && c2.Returned?
            && c2.value.entity.id == UncheckedIncrement(c1.entity.id)
            && (c1.entity.id < MaxLong ==> c2.value.entity.id == c1.entity.id + 1)
  {
    CreateAdvancesCounter(t, s, e1);
  }

  /**
   * `stores[0]`, `stores[1]`, ... are the stores a run of creates passes through: the
   * i-th create, of `es[i]` in `stores[i]`, returns `created[i]` and `stores[i + 1]`.
   */
  ghost predicate CreateRun<F>(t: EntityType<F>, stores: seq<Store>, es: seq<Entity<F>>, created: seq<Entity<F>>)
  {
    && |stores| == |es| + 1
    && |created| == |es|
    && forall i {:trigger created[i]} :: 0 <= i < |es| ==>
         CreateEntity(t, stores[i], es[i]) == Returned(Created(created[i], stores[i + 1]))
  }

  /** A create takes the ID the counter allocates. */
  lemma CreatedEntityIs<F>(t: EntityType<F>, s: Store, e: Entity<F>, c: Created<F>, n: Long)
    requires AllocateId(t, s) == Returned(n)
    requires CreateEntity(t, s, e) == Returned(c)
    ensures c.entity == e.(id := n)
  {
  }

  /** One create from a counter at `n` below the top: the entity gets `n`, the counter moves to n+1. */
  lemma CreateStep<F>(t: EntityType<F>, s: Store, e: Entity<F>, c: Created<F>, n: Long)
    requires AllocateId(t, s) == Returned(n) && n < MaxLong
    requires CreateEntity(t, s, e) == Returned(c)
    ensures c.entity == e.(id := n)
    ensures AllocateId(t, c.store) == Returned(n + 1)
  {
    CreateAdvancesCounter(t, s, e);
  }

  /** The run's i-th step: the counter has advanced by i, and the i-th entity gets n+i. */
  lemma {:induction false} CreateRunAt<F>(t: EntityType<F>, stores: seq<Store>, es: seq<Entity<F>>,
                                          created: seq<Entity<F>>, n: Long, i: nat)
    requires CreateRun(t, stores, es, created)
    requires AllocateId(t, stores[0]) == Returned(n)
    requires i <= |es| && n + i <= MaxLong
    ensures AllocateId(t, stores[i]) == Returned(n + i)
    ensures i < |es| ==> created[i] == es[i].(id := n + i)
  {
    if i > 0 {
      CreateRunAt(t, stores, es, created, n, i - 1);
      CreateStep(t, stores[i - 1], es[i - 1], Created(created[i - 1], stores[i]), n + i - 1);
    }
    if i < |es| {
      CreatedEntityIs(t, stores[i], es[i], Created(created[i], stores[i + 1]), n + i);
    }
  }

  /**
   * N creates of one type in a row, starting from a counter that allocates `n` and with
   * room left in the long range: the entities are `es` in order, each with its fields
   * unchanged and with the IDs n, n+1, ..., n+N-1, and the counter ends at n+N.
   */
  lemma CreateRunConsecutive<F>(t: EntityType<F>, stores: seq<Store>, es: seq<Entity<F>>,
                                created: seq<Entity<F>>, n: Long)
    requires CreateRun(t, stores, es, created)
    requires AllocateId(t, stores[0]) == Returned(n)
    requires n + |es| <= MaxLong
    ensures forall i :: 0 <= i < |es| ==> created[i] == es[i].(id := n + i)
    ensures AllocateId(t, stores[|es|]) == Returned(n + |es|)
  {
    forall i | 0 <= i < |es|
      ensures created[i] == es[i].(id := n + i)
    {
      CreateRunAt(t, stores, es, created, n, i);
    }
    CreateRunAt(t, stores, es, created, n, |es|);
  }

  /** IDs handed out by a run of creates are strictly increasing, hence distinct. */
  lemma CreateRunDistinct<F>(t: EntityType<F>, stores: seq<Store>, es: seq<Entity<F>>, created: seq<Entity<F>>, n: Long)
    requires CreateRun(t, stores, es, created)
    requires AllocateId(t, stores[0]) == Returned(n)
    requires n + |es| <= MaxLong
    ensures forall i, j :: 0 <= i < j < |es| ==> created[i].id < created[j].id
  {
    CreateRunConsecutive(t, stores, es, created, n);
  }

  /** Round trip: the created record is `e` with its new ID, and reading that ID returns it. */
  lemma CreateThenGet<F(!new)>(t: EntityType<F>, s: Store, e: Entity<F>)
    requires RoundTrips(t.codec)
    requires CreateEntity(t, s, e).Returned?
    ensures var c := CreateEntity(t, s, e).value;
            && c.entity == e.(id := c.entity.id)
            && GetEntity(t, c.store, c.entity.id) == Some(c.entity)
  {
    var c := CreateEntity(t, s, e).value;
    assert EntityKeyOf(t, c.store, c.entity.id) == EntityKeyOf(t, s, c.entity.id);
  }

  /** A created record is enumerated for its type, and readable there. */
  lemma CreatedIsEnumerated<F(!new)>(t: EntityType<F>, s: Store, e: Entity<F>)
    requires s.Valid()
    requires CreateEntity(t, s, e).Returned?
    ensures var c := CreateEntity(t, s, e).value;
            && EntityKeyOf(t, s, c.entity.id) in InstanceKeys(t, c.store)
            && (RoundTrips(t.codec) ==> Some(c.entity) in GetAllEntities(t, c.store))
  {
    var c := CreateEntity(t, s, e).value;
    var key := EntityKeyOf(t, s, c.entity.id);
    EntityKeyIsInstance(s.root, s.delim, t.name, c.entity.id);
    assert RootKeyOf(t, c.store) == RootKeyOf(t, s);
    assert key in InstanceKeys(t, c.store);
    if RoundTrips(t.codec) {
      var keys := InstanceKeys(t, c.store);
      var i :| 0 <= i < |keys| && keys[i] == key;
      assert GetAllEntities(t, c.store)[i] == Some(c.entity);
    }
  }

  /** Counter keys never show up in enumeration, though they lie under the type's root key. */
  lemma CounterNeverEnumerated<F>(t: EntityType<F>, s: Store)
    ensures Under(NextIdKeyOf(t, s), RootKeyOf(t, s), s.delim)
    ensures NextIdKeyOf(t, s) !in InstanceKeys(t, s)
  {
    NextIdKeyIsNotInstance(s.root, s.delim, t.name);
  }

  /**
   * Update writes the one key of `e.ID`: reading that ID returns `e`, and every other
   * ID of the type reads as before.
   */
  lemma UpdateThenGet<F(!new)>(t: EntityType<F>, s: Store, e: Entity<F>)
    ensures RoundTrips(t.codec) ==> GetEntity(t, UpdateEntity(t, s, e), e.id) == Some(e)
    ensures forall id :: id != e.id ==> GetEntity(t, UpdateEntity(t, s, e), id) == GetEntity(t, s, id)
  {
    forall id | id != e.id
      ensures GetEntity(t, UpdateEntity(t, s, e), id) == GetEntity(t, s, id)
    {
      EntityKeyInjectiveWithinType(s.root, s.delim, t.name, id, e.id);
    }
  }

  /** Updating twice with the same record leaves the store as one update does. */
  lemma UpdateIdempotent<F>(t: EntityType<F>, s: Store, e: Entity<F>)
    ensures UpdateEntity(t, UpdateEntity(t, s, e), e) == UpdateEntity(t, s, e)
  {
    var once := UpdateEntity(t, s, e);
    assert once.backend.values[EntityKeyOf(t, s, e.id) := t.codec.encode(e)] == once.backend.values;
  }

  /**
   * An update never moves its own type's counter: after `UpdateEntity` the next
   * allocation of that type is what it was, so the counter stays one ahead of the last
   * issued ID.
   */
  lemma UpdateKeepsOwnCounter<F>(t: EntityType<F>, s: Store, e: Entity<F>)
    ensures AllocateId(t, UpdateEntity(t, s, e)) == AllocateId(t, s)
  {
    EntityKeyIsNotOwnNextIdKey(s.root, s.delim, t.name, e.id);
  }

  /**
   * Type `t` observes the same in `s'` as in `s`: the same enumeration with the same
   * records, the same records by ID, and the same counter.
   */
  ghost predicate SameView<F>(t: EntityType<F>, s: Store, s': Store)
  {
    && InstanceKeys(t, s') == InstanceKeys(t, s)
    && (forall k :: k in InstanceKeys(t, s) ==> GetEntityByKey(t, s', k) == GetEntityByKey(t, s, k))
    && GetAllEntities(t, s') == GetAllEntities(t, s)
    && AllocateId(t, s') == AllocateId(t, s)
    && (forall id :: GetEntity(t, s', id) == GetEntity(t, s, id))
  }

  /** Writing one key outside the namespace of type `b` leaves `b`'s enumerated keys as they were ... */
  lemma WriteOutsideKeys<G>(b: EntityType<G>, s: Store, key: string, value: string)
    requires !Under(key, RootKeyOf(b, s), s.delim)
    ensures InstanceKeys(b, s.(backend := WriteKey(s.backend, key, value))) == InstanceKeys(b, s)
  {
    GetAllKeysAfterWriteOutside(s.backend, key, value, RootKeyOf(b, s), s.delim);
  }

  /** ... and the records under them ... */
  lemma WriteOutsideRecords<G>(b: EntityType<G>, s: Store, key: string, value: string)
    requires !Under(key, RootKeyOf(b, s), s.delim)
    ensures forall k :: k in InstanceKeys(b, s) ==>
              GetEntityByKey(b, s.(backend := WriteKey(s.backend, key, value)), k) == GetEntityByKey(b, s, k)
  {
    forall k | k in InstanceKeys(b, s)
      ensures GetEntityByKey(b, s.(backend := WriteKey(s.backend, key, value)), k) == GetEntityByKey(b, s, k)
    {
      GetAllKeysAreUnder(s.backend, RootKeyOf(b, s), s.delim, k);
    }
  }

  /** ... so the enumeration reads the same records. */
  lemma WriteOutsideEnumeration<G>(b: EntityType<G>, s: Store, key: string, value: string)
    requires !Under(key, RootKeyOf(b, s), s.delim)
    ensures var s' := s.(backend := WriteKey(s.backend, key, value));
            && InstanceKeys(b, s') == InstanceKeys(b, s)
            && (forall k :: k in InstanceKeys(b, s) ==> GetEntityByKey(b, s', k) == GetEntityByKey(b, s, k))
            && GetAllEntities(b, s') == GetAllEntities(b, s)
  {
    var s' := s.(backend := WriteKey(s.backend, key, value));
    WriteOutsideKeys(b, s, key, value);
    WriteOutsideRecords(b, s, key, value);
    var keys := InstanceKeys(b, s);
    forall i | 0 <= i < |keys|
      ensures GetAllEntities(b, s')[i] == GetAllEntities(b, s)[i]
    {
      assert keys[i] in keys;
    }
  }

  /** ... its counter, which lies under its root key ... */
  lemma WriteOutsideCounter<G>(b: EntityType<G>, s: Store, key: string, value: string)
    requires !Under(key, RootKeyOf(b, s), s.delim)
    ensures AllocateId(b, s.(backend := WriteKey(s.backend, key, value))) == AllocateId(b, s)
  {
    assert Under(NextIdKeyOf(b, s), RootKeyOf(b, s), s.delim);
  }

  /** ... and its records by ID, whose keys lie under its root key too. */
  lemma WriteOutsideGet<G>(b: EntityType<G>, s: Store, key: string, value: string)
    requires !Under(key, RootKeyOf(b, s), s.delim)
    ensures forall id :: GetEntity(b, s.(backend := WriteKey(s.backend, key, value)), id) == GetEntity(b, s, id)
  {
    forall id
      ensures GetEntity(b, s.(backend := WriteKey(s.backend, key, value)), id) == GetEntity(b, s, id)
    {
      assert Under(EntityKeyOf(b, s, id), RootKeyOf(b, s), s.delim);
    }
  }

  /** Type `b` observes nothing of a write outside its namespace. */
  lemma WriteOutsideType<G>(b: EntityType<G>, s: Store, key: string, value: string)
    requires ValidDelimiter(s.delim)
    requires !Under(key, RootKeyOf(b, s), s.delim)
    ensures SameView(b, s, s.(backend := WriteKey(s.backend, key, value)))
  {
    WriteOutsideEnumeration(b, s, key, value);
    WriteOutsideCounter(b, s, key, value);
    WriteOutsideGet(b, s, key, value);
  }

  /**
   * Namespace isolation for update: overwriting a record of type `a` leaves everything
   * another type `b` observes unchanged, its predicate lookups included.
   */
  lemma UpdateIsolation<F, G>(a: EntityType<F>, b: EntityType<G>, s: Store, e: Entity<F>)
    requires ValidDelimiter(s.delim) && Namespaced(a, s) && Namespaced(b, s) && a.name != b.name
    ensures SameView(b, s, UpdateEntity(a, s, e))
    ensures forall matches :: GetEntityWhere(b, UpdateEntity(a, s, e), matches) == GetEntityWhere(b, s, matches)
  {
    OtherNamespace(s.root, s.delim, a.name, b.name, Show(e.id));
    WriteOutsideType(b, s, EntityKeyOf(a, s, e.id), a.codec.encode(e));
  }

  /**
   * Namespace isolation for create: creating a record of type `a` changes neither the
   * counter, the records nor the lookups of another type `b`.
   */
  lemma CreateIsolation<F, G>(a: EntityType<F>, b: EntityType<G>, s: Store, e: Entity<F>)
    requires ValidDelimiter(s.delim) && Namespaced(a, s) && Namespaced(b, s) && a.name != b.name
    requires CreateEntity(a, s, e).Returned?
    ensures SameView(b, s, CreateEntity(a, s, e).value.store)
    ensures forall matches ::
              GetEntityWhere(b, CreateEntity(a, s, e).value.store, matches) == GetEntityWhere(b, s, matches)
  {
    var id := AllocateId(a, s).value;
    var counted := s.(backend := WriteKey(s.backend, NextIdKeyOf(a, s), Show(UncheckedIncrement(id))));
    OtherNamespace(s.root, s.delim, a.name, b.name, NextIdSegment);
    WriteOutsideType(b, s, NextIdKeyOf(a, s), Show(UncheckedIncrement(id)));
    UpdateIsolation(a, b, counted, e.(id := id));
  }

  /**
   * What a type's enumeration sees in `s'` when `s'` differs from `s` only at the keys
   * in `written`: every other enumerated key was enumerated before, with the same record.
   */
  lemma InstanceKeysFrame<F>(t: EntityType<F>, s: Store, s': Store, written: set<string>)
    requires s.backend.Valid() && s'.backend.Valid()
    requires s.root == s'.root && s.delim == s'.delim
    requires forall k :: k !in written ==> ReadKey(s'.backend, k) == ReadKey(s.backend, k)
    ensures forall k :: k in InstanceKeys(t, s') && k !in written ==>
              k in InstanceKeys(t, s) && GetEntityByKey(t, s', k) == GetEntityByKey(t, s, k)
  {
    forall k | k in InstanceKeys(t, s') && k !in written
      ensures k in InstanceKeys(t, s) && GetEntityByKey(t, s', k) == GetEntityByKey(t, s, k)
    {
      assert ReadKey(s'.backend, k) == ReadKey(s.backend, k);
    }
  }

  /** A lookup that found nothing saw only readable records, all rejected. */
  lemma FindNoneMeansNoMatch<F>(t: EntityType<F>, s: Store, matches: Entity<F> -> bool)
    ensures GetEntityWhere(t, s, matches) == Returned(None) ==>
              forall k :: k in InstanceKeys(t, s) ==>
                GetEntityByKey(t, s, k).Some? && !matches(GetEntityByKey(t, s, k).value)
  {
    if GetEntityWhere(t, s, matches) == Returned(None) {
      var keys := InstanceKeys(t, s);
      var items := GetAllEntities(t, s);
      assert PassedBefore(items, matches, |items|);
      forall k | k in keys
        ensures GetEntityByKey(t, s, k).Some? && !matches(GetEntityByKey(t, s, k).value)
      {
        var i :| 0 <= i < |keys| && keys[i] == k;
        assert items[i] == GetEntityByKey(t, s, k);
      }
    }
  }

  /**
   * `key` is enumerated and holds the one record `matches` accepts; every other
   * enumerated key holds a readable record that `matches` rejects.
   */
  ghost predicate SoleMatch<F>(t: EntityType<F>, s: Store, matches: Entity<F> -> bool, key: string)
  {
    && key in InstanceKeys(t, s)
    && GetEntityByKey(t, s, key).Some? && matches(GetEntityByKey(t, s, key).value)
    && forall k :: k in InstanceKeys(t, s) && k != key ==>
         GetEntityByKey(t, s, k).Some? && !matches(GetEntityByKey(t, s, k).value)
  }

  /** With a sole match the lookup returns it, whatever the enumeration order. */
  lemma FindSoleMatch<F>(t: EntityType<F>, s: Store, matches: Entity<F> -> bool, key: string)
    requires s.backend.Valid()
    requires SoleMatch(t, s, matches, key)
    ensures GetEntityWhere(t, s, matches) == Returned(GetEntityByKey(t, s, key))
  {
    var keys := InstanceKeys(t, s);
    var items := GetAllEntities(t, s);
    var i :| 0 <= i < |keys| && keys[i] == key;
    forall j | 0 <= j < i
      ensures items[j].Some? && !matches(items[j].value)
    {
      assert keys[j] != key;
      assert keys[j] in keys;
    }
    assert FirstMatchAt(items, matches, i);
  }

  /**
   * After a lookup that found nothing, a create adds one enumerated key; every other
   * key it enumerates still holds a readable record the predicate rejects.
   */
  lemma NoOtherMatchAfterCreate<F>(t: EntityType<F>, s: Store, e: Entity<F>, matches: Entity<F> -> bool)
    requires s.Valid()
    requires GetEntityWhere(t, s, matches) == Returned(None)
    requires CreateEntity(t, s, e).Returned?
    ensures var c := CreateEntity(t, s, e).value;
            forall k :: k in InstanceKeys(t, c.store) && k != EntityKeyOf(t, s, c.entity.id) ==>
              GetEntityByKey(t, c.store, k).Some? && !matches(GetEntityByKey(t, c.store, k).value)
  {
    var c := CreateEntity(t, s, e).value;
    FindNoneMeansNoMatch(t, s, matches);
    InstanceKeysFrame(t, s, c.store, {NextIdKeyOf(t, s), EntityKeyOf(t, s, c.entity.id)});
    assert NextIdKeyOf(t, c.store) == NextIdKeyOf(t, s);
  }

  /**
   * After a lookup that found nothing, a create of a matching record leaves that record
   * the sole match: the new key is the only one added, and the counter write is not
   * enumerated.
   */
  lemma CreateMakesSoleMatch<F(!new)>(t: EntityType<F>, s: Store, e: Entity<F>, matches: Entity<F> -> bool)
    requires s.Valid() && RoundTrips(t.codec)
    requires GetEntityWhere(t, s, matches) == Returned(None)
    requires CreateEntity(t, s, e).Returned? && matches(CreateEntity(t, s, e).value.entity)
    ensures var c := CreateEntity(t, s, e).value;
            && SoleMatch(t, c.store, matches, EntityKeyOf(t, s, c.entity.id))
            && GetEntityByKey(t, c.store, EntityKeyOf(t, s, c.entity.id)) == Some(c.entity)
  {
    var c := CreateEntity(t, s, e).value;
    CreatedIsEnumerated(t, s, e);
    NoOtherMatchAfterCreate(t, s, e, matches);
    assert GetEntityByKey(t, c.store, EntityKeyOf(t, s, c.entity.id)) == Some(c.entity);
  }

  /** A lookup that found nothing finds the record created next, when it matches. */
  lemma FindAfterCreate<F(!new)>(t: EntityType<F>, s: Store, e: Entity<F>, matches: Entity<F> -> bool)
    requires s.Valid() && RoundTrips(t.codec)
    requires GetEntityWhere(t, s, matches) == Returned(None)
    requires CreateEntity(t, s, e).Returned? && matches(CreateEntity(t, s, e).value.entity)
    ensures var c := CreateEntity(t, s, e).value;
            GetEntityWhere(t, c.store, matches) == Returned(Some(c.entity))
  {
    var c := CreateEntity(t, s, e).value;
    CreateMakesSoleMatch(t, s, e, matches);
    FindSoleMatch(t, c.store, matches, EntityKeyOf(t, s, c.entity.id));
  }

  /**
   * Overwriting the sole match with a record the predicate still accepts keeps it the
   * sole match: an existing key changes neither the enumeration nor the other records.
   */
  lemma UpdateKeepsSoleMatch<F(!new)>(t: EntityType<F>, s: Store, e: Entity<F>, matches: Entity<F> -> bool)
    requires s.backend.Valid() && RoundTrips(t.codec) && matches(e)
    requires SoleMatch(t, s, matches, EntityKeyOf(t, s, e.id))
    ensures SoleMatch(t, UpdateEntity(t, s, e), matches, EntityKeyOf(t, s, e.id))
    ensures GetEntityByKey(t, UpdateEntity(t, s, e), EntityKeyOf(t, s, e.id)) == Some(e)
  {
    var s' := UpdateEntity(t, s, e);
    var key := EntityKeyOf(t, s, e.id);
    assert key in s.backend.values;
    assert s'.backend.order == s.backend.order;
    assert InstanceKeys(t, s') == InstanceKeys(t, s);
  }

  /** A type that observes the same store keeps its sole match. */
  lemma SameViewKeepsSoleMatch<F>(t: EntityType<F>, s: Store, s': Store, matches: Entity<F> -> bool, key: string)
    requires SameView(t, s, s')
    requires SoleMatch(t, s, matches, key)
    ensures SoleMatch(t, s', matches, key)
  {
    assert GetEntityByKey(t, s', key) == GetEntityByKey(t, s, key);
  }
}

=== FILE: exceptions.dfy ===
/**
 * The exceptions the store and the application can raise, and the errors a
 * command result reports.  C# exceptions become values: an operation that may
 * throw returns an `Outcome`.
 */
module Exceptions {

  /** An entry of `HerdAppCommandResult.Errors`. */
  datatype Error =
    | UserError(message: string)    // reported by HerdAppUserErrorException
    | SystemError(message: string)  // an unexpected exception, wrapped by ProcessCommand

  datatype Exception =
    | HerdAppError(error: Error)      // HerdAppErrorException and its subclasses, carrying their Error
    | SystemException(message: string) // any other exception, with its Message

  /** The result of a C# call that either returns a value or throws. */
  datatype Outcome<+T> = Returned(value: T) | Threw(exception: Exception)

  /** The Message of .NET's NullReferenceException. */
  const NullReferenceMessage := "Object reference not set to an instance of an object."

  const NullReference := SystemException(NullReferenceMessage)

  /** Stands for the JSON reader's exception when a stored counter is not a long. */
  function CounterParseFailure(text: string): Exception
  {
    SystemException("Could not convert string to long: " + text)
  }
}

=== FILE: herd_app.dfy ===
/**
 * The business layer: each command runs its work against the data provider inside
 * `ProcessCommand`, which turns every exception into an entry of the result's errors.
 * Password hashing and the Mastodon API are parameters.
 */
module HerdApp {
  import opened Nullable
  import opened Exceptions
  import opened DotNetText
  import opened EntityStore
  import opened HerdDataProvider

  /** The OAuth "out of band" redirect URI, used when no return URL is given. */
  const NonRedirectUrl := "urn:ietf:wg:oauth:2.0:oob"

  const EmailTakenMessage := "That email address has already been taken"
  const WrongLoginMessage := "Wrong email or password"
  const NoRegistrationMessage := "No app registration with that ID"
  const UnhandledPrefix := "Unhandled exception: "

  /** `HerdAppCommandResult<D>`: the data the command set, null until it does, and the errors. */
  datatype CommandResult<+D> = CommandResult(data: Option<D>, errors: seq<Error>)
  {
    predicate Success()
    {
      |errors| == 0
    }
  }

  /**
   * Where a command's work stopped: the result data it had set by then, the provider
   * as it had left it, and the exception that ended it early, if any.
   */
  datatype Work<+D> = Work(data: Option<D>, state: Data, thrown: Option<Exception>)

  /** A command's result and the provider after the command. */
  datatype Response<+D> = Response(result: CommandResult<D>, state: Data)

  /** The error recorded for an exception: its own for a `HerdAppErrorException`, a wrapped message otherwise. */
  function ErrorOf(x: Exception): Error
  {
    match x
    case HerdAppError(error) => error
    case SystemException(message) => SystemError(UnhandledPrefix + message)
  }

  /**
   * `ProcessCommand`: returns whatever the work did, and never lets an exception out;
   * an exception becomes the result's one error.
   */
  function ProcessCommand<D>(w: Work<D>): (r: Response<D>)
    ensures r.state == w.state && r.result.data == w.data
    ensures r.result.Success() <==> w.thrown.None?
    ensures |r.result.errors| <= 1
    ensures w.thrown.Some? && w.thrown.value.HerdAppError? ==> r.result.errors == [w.thrown.value.error]
    ensures w.thrown.Some? && w.thrown.value.SystemException? ==>
              r.result.errors == [SystemError(UnhandledPrefix + w.thrown.value.message)]
  {
    match w.thrown
    case None => Response(CommandResult(w.data, []), w.state)
    case Some(x) => Response(CommandResult(w.data, [ErrorOf(x)]), w.state)
  }

  /** `HerdAppUserErrorException(message)`. */
  function UserFailure(message: string): Exception
  {
    HerdAppError(UserError(message))
  }

  // Users

  datatype GetUserData = GetUserData(user: Option<User>)

  /** `GetUser`: the account with the command's ID, null when there is none; never fails. */
  function GetUser(d: Data, userId: Long): (r: Response<GetUserData>)
    ensures r.state == d
    ensures r.result.Success()
    ensures r.result.data == Some(GetUserData(HerdDataProvider.GetUser(d, userId)))
  {
    ProcessCommand(Work(Some(GetUserData(HerdDataProvider.GetUser(d, userId))), d, None))
  }

  datatype CreateUserCommand = CreateUserCommand(email: string, passwordPlainText: string, firstName: string, lastName: string)

  /** The result data of `CreateUser`: set once the account exists, the profile added after. */
  datatype CreateUserData = CreateUserData(user: User, profile: Option<Profile>)

  /**
   * The account `CreateUser` asks the provider to store, before it has an ID or a
   * profile: the command's email, the drawn salt, and a salted password that the
   * command's plain-text password passes.
   */
  function NewAccount(cmd: CreateUserCommand, salt: Int32, hashed: (string, Int32) -> string): (u: User)
    ensures u.fields.email == cmd.email
    ensures u.fields.security.saltKey == salt
    ensures PasswordIs(u, cmd.passwordPlainText, hashed)
    ensures u.fields.profileId == 0 && u.fields.mastodonConnection == None
  {
    Entity(0, UserAccount(cmd.email, Security(salt, hashed(cmd.passwordPlainText, salt)), 0, None))
  }

  /**
   * The work of `CreateUser`: refuse a taken email; store the account with the salt and
   * the salted hash; store a profile pointing at the account; point the account at the
   * profile and store it again.  `salt` is the random salt the command draws.
   */
  function CreateUserWork(d: Data, cmd: CreateUserCommand, salt: Int32, hashed: (string, Int32) -> string): (w: Work<CreateUserData>)
    ensures w.thrown.None? <==> w.data.Some? && w.data.value.profile.Some?
    ensures w.data.None? ==> w.state == d
    ensures w.data.Some? && w.thrown.Some? ==>
              var u := HerdDataProvider.CreateUser(d, NewAccount(cmd, salt, hashed));
              && u.Returned?
              && w.data == Some(CreateUserData(u.value.entity, None))
              && w.state == u.value.data
  {
    match GetUserByEmail(d, cmd.email)
    case Threw(x) => Work(None, d, Some(x))
    case Returned(Some(_)) => Work(None, d, Some(UserFailure(EmailTakenMessage)))
    case Returned(None) =>
      match HerdDataProvider.CreateUser(d, NewAccount(cmd, salt, hashed))
      case Threw(x) => Work(None, d, Some(x))
      case Returned(u) =>
        match CreateProfile(u.data, Entity(0, UserProfile(cmd.firstName, cmd.lastName, u.entity.id)))
        case Threw(x) => Work(Some(CreateUserData(u.entity, None)), u.data, Some(x))
        case Returned(p) =>
          var user := u.entity.(fields := u.entity.fields.(profileId := p.entity.id));
          Work(Some(CreateUserData(user, Some(p.entity))), UpdateUser(p.data, user), None)
  }

  /**
   * `CreateUser`: a taken email is a user error that changes nothing; a success returns
   * an account with the command's email, the salt and the salted password for that salt,
   * and a profile with the command's names, each pointing at the other.
   */
  function CreateUser(d: Data, cmd: CreateUserCommand, salt: Int32, hashed: (string, Int32) -> string): (r: Response<CreateUserData>)
    ensures GetUserByEmail(d, cmd.email).Returned? && GetUserByEmail(d, cmd.email).value.Some? ==>
              r == Response(CommandResult(None, [UserError(EmailTakenMessage)]), d)
    ensures GetUserByEmail(d, cmd.email).Threw? ==>
              r == Response(CommandResult(None, [SystemError(UnhandledPrefix + NullReferenceMessage)]), d)
    ensures r.result.Success() ==> GetUserByEmail(d, cmd.email) == Returned(None)
    ensures r.result.Success() ==>
              && r.result.data.Some? && r.result.data.value.profile.Some?
              && var user := r.result.data.value.user;
                 var profile := r.result.data.value.profile.value;
                 && user.fields.email == cmd.email
                 && user.fields.security == Security(salt, hashed(cmd.passwordPlainText, salt))
                 && user.fields.mastodonConnection == None
                 && profile.fields == UserProfile(cmd.firstName, cmd.lastName, user.id)
                 && user.fields.profileId == profile.id
  {
    ProcessCommand(CreateUserWork(d, cmd, salt, hashed))
  }

  /**
   * `PasswordIs`: the plain text, hashed with the salt stored in the account, is the
   * stored salted password.  Only the account's security record is consulted.
   */
  predicate PasswordIs(user: User, passwordPlainText: string, hashed: (string, Int32) -> string)
  {
    user.fields.security.saltedPassword == hashed(passwordPlainText, user.fields.security.saltKey)
  }

  datatype LoginUserCommand = LoginUserCommand(email: string, passwordPlainText: string)

  datatype LoginUserData = LoginUserData(user: User)

  /** The work of `LoginUser`: it only reads, and it sets the data exactly when it does not throw. */
  function LoginUserWork(d: Data, cmd: LoginUserCommand, hashed: (string, Int32) -> string): (w: Work<LoginUserData>)
    ensures w.state == d
    ensures w.thrown.None? <==> w.data.Some?
  {
    match GetUserByEmail(d, cmd.email)
    case Threw(x) => Work(None, d, Some(x))
    case Returned(found) =>
      if found.Some? && PasswordIs(found.value, cmd.passwordPlainText, hashed) then
        Work(Some(LoginUserData(found.value)), d, None)
      else Work(None, d, Some(UserFailure(WrongLoginMessage)))
  }

  /**
   * `LoginUser`: succeeds exactly when the account found by email takes the password,
   * returning that account; an unknown email and a wrong password give the same user
   * error.  Nothing is written.
   */
  function LoginUser(d: Data, cmd: LoginUserCommand, hashed: (string, Int32) -> string): (r: Response<LoginUserData>)
    ensures r.state == d
    ensures r.result.Success() <==>
              && GetUserByEmail(d, cmd.email).Returned?
              && GetUserByEmail(d, cmd.email).value.Some?
              && PasswordIs(GetUserByEmail(d, cmd.email).value.value, cmd.passwordPlainText, hashed)
    ensures r.result.Success() ==>
              r.result.data == Some(LoginUserData(GetUserByEmail(d, cmd.email).value.value))
              && r.result.data.value.user.fields.email == cmd.email
    ensures GetUserByEmail(d, cmd.email).Returned? && !r.result.Success() ==>
              r.result == CommandResult(None, [UserError(WrongLoginMessage)])
  {
    ProcessCommand(LoginUserWork(d, cmd, hashed))
  }

  // App registrations

  datatype RegistrationData = RegistrationData(registration: Option<Registration>)

  /** `GetRegistration`: the registration with the command's ID, null when there is none; never fails. */
  function GetRegistration(d: Data, id: Long): (r: Response<RegistrationData>)
    ensures r.state == d
    ensures r.result.Success()
    ensures r.result.data == Some(RegistrationData(GetAppRegistration(d, id)))
  {
    ProcessCommand(Work(Some(RegistrationData(GetAppRegistration(d, id))), d, None))
  }

  /** The Mastodon API as the commands use it: both calls go over the network and may throw. */
  datatype Mastodon = Mastodon(
    registerApp: string -> Outcome<Registration>,                  // `new MastodonApiWrapper(instance).RegisterApp()`
    getOAuthUrl: (Registration, Option<string>) -> Outcome<string>) // `GetOAuthUrl(returnURL)` on a wrapper holding the registration

  datatype GetOAuthUrlCommand = GetOAuthUrlCommand(appRegistrationId: Long, returnUrl: Option<string>)

  datatype OAuthUrlData = OAuthUrlData(url: string)

  /**
   * The `IsNullOrWhiteSpace(ReturnURL) ? NON_REDIRECT_URL : ReturnURL` fallback of
   * `GetOAuthURL`: the command's return URL, or the out-of-band URI when that is blank.
   */
  function EffectiveReturnUrl(cmd: GetOAuthUrlCommand): (url: string)
    ensures !IsNullOrWhiteSpace(Some(url))
    ensures !IsNullOrWhiteSpace(cmd.returnUrl) ==> url == cmd.returnUrl.value
  {
    if IsNullOrWhiteSpace(cmd.returnUrl) then NonRedirectUrl else cmd.returnUrl.value
  }

  /**
   * The work of `GetOAuthURL`.  The fallback URL is computed and then not used: the
   * wrapper is asked for the URL with the command's own return URL.
   */
  function GetOAuthUrlWork(d: Data, cmd: GetOAuthUrlCommand, api: Mastodon): (w: Work<OAuthUrlData>)
    ensures w.state == d
    ensures w.thrown.None? <==> w.data.Some?
  {
    var _ := EffectiveReturnUrl(cmd);
    match GetAppRegistration(d, cmd.appRegistrationId)
    case None => Work(None, d, Some(UserFailure(NoRegistrationMessage)))
    case Some(registration) =>
      match api.getOAuthUrl(registration, cmd.returnUrl)
      case Threw(x) => Work(None, d, Some(x))
      case Returned(url) => Work(Some(OAuthUrlData(url)), d, None)
  }

  /**
   * `GetOAuthURL`: an unknown registration ID is a user error; otherwise the URL is the
   * one the API gives for that registration and the command's return URL as given.
   */
  function GetOAuthUrl(d: Data, cmd: GetOAuthUrlCommand, api: Mastodon): (r: Response<OAuthUrlData>)
    ensures r.state == d
    ensures GetAppRegistration(d, cmd.appRegistrationId).None? ==>
              r.result == CommandResult(None, [UserError(NoRegistrationMessage)])
    ensures r.result.Success() <==>
              && GetAppRegistration(d, cmd.appRegistrationId).Some?
              && api.getOAuthUrl(GetAppRegistration(d, cmd.appRegistrationId).value, cmd.returnUrl).Returned?
    ensures r.result.Success() ==>
              r.result.data == Some(OAuthUrlData(
                api.getOAuthUrl(GetAppRegistration(d, cmd.appRegistrationId).value, cmd.returnUrl).value))
  {
    ProcessCommand(GetOAuthUrlWork(d, cmd, api))
  }

  /**
   * The work of `GetOrCreateRegistration`: it sets the data exactly when it does not
   * throw, and a thrown exception leaves the provider as it was, since the one write
   * (the create) either happens whole or throws before writing.
   */
  function GetOrCreateRegistrationWork(d: Data, instance: string, api: Mastodon): (w: Work<RegistrationData>)
    ensures w.thrown.None? <==> w.data.Some?
    ensures w.thrown.Some? ==> w.state == d
  {
    match GetAppRegistrationByInstance(d, instance)
    case Threw(x) => Work(None, d, Some(x))
    case Returned(Some(registration)) => Work(Some(RegistrationData(Some(registration))), d, None)
    case Returned(None) =>
      match api.registerApp(instance)
      case Threw(x) => Work(None, d, Some(x))
      case Returned(registered) =>
        match CreateAppRegistration(d, registered)
        case Threw(x) => Work(None, d, Some(x))
        case Returned(c) => Work(Some(RegistrationData(Some(c.entity))), c.data, None)
  }

  /**
   * `GetOrCreateRegistration`: an instance that already has a registration gets it back
   * and nothing is written; otherwise the app is registered with the instance and that
   * one registration is stored under the next registration ID.
   */
  function GetOrCreateRegistration(d: Data, instance: string, api: Mastodon): (r: Response<RegistrationData>)
    ensures GetAppRegistrationByInstance(d, instance).Returned? && GetAppRegistrationByInstance(d, instance).value.Some? ==>
              r == Response(CommandResult(Some(RegistrationData(GetAppRegistrationByInstance(d, instance).value)), []), d)
    ensures GetAppRegistrationByInstance(d, instance) == Returned(None) ==>
              && (r.result.Success() <==>
                    api.registerApp(instance).Returned?
                    && CreateAppRegistration(d, api.registerApp(instance).value).Returned?)
              && (r.result.Success() ==>
                    var created := CreateAppRegistration(d, api.registerApp(instance).value).value;
                    && r.state == created.data
                    && r.result.data == Some(RegistrationData(Some(created.entity)))
                    && created.entity == api.registerApp(instance).value.(id := created.entity.id))
              && (!r.result.Success() ==> r.state == d && r.result.data == None)
    ensures GetAppRegistrationByInstance(d, instance).Threw? ==>
              r == Response(CommandResult(None, [SystemError(UnhandledPrefix + NullReferenceMessage)]), d)
  {
    ProcessCommand(GetOrCreateRegistrationWork(d, instance, api))
  }
}

=== FILE: herd_app_properties.dfy ===
/**
 * What the commands guarantee across calls: a user created with an email can log in
 * with it and cannot be created twice, the account and profile are stored linked to
 * each other, and get-or-create of a registration creates at most once per instance.
 */
module HerdAppProperties {
  import opened Nullable
  import opened Exceptions
  import opened DotNetText
  import opened KeyValueBackend
  import opened EntityKeys
  import opened EntityStore
  import opened EntityStoreProperties
  import opened HerdDataProvider
  import opened HerdApp

  /** The stages a successful `CreateUser` passes through, as the rest of this module names them. */
  lemma CreateUserStages(d: Data, cmd: CreateUserCommand, salt: Int32, hashed: (string, Int32) -> string)
    requires HerdApp.CreateUser(d, cmd, salt, hashed).result.Success()
    ensures var u := HerdDataProvider.CreateUser(d, NewAccount(cmd, salt, hashed));
            && GetUserByEmail(d, cmd.email) == Returned(None)
            && u.Returned?
            && var p := CreateProfile(u.value.data, Entity(0, UserProfile(cmd.firstName, cmd.lastName, u.value.entity.id)));
               && p.Returned?
               && var user := u.value.entity.(fields := u.value.entity.fields.(profileId := p.value.entity.id));
                  && HerdApp.CreateUser(d, cmd, salt, hashed).result.data == Some(CreateUserData(user, Some(p.value.entity)))
                  && HerdApp.CreateUser(d, cmd, salt, hashed).state == UpdateUser(p.value.data, user)
  {
  }

  /**
   * A fresh email with both counters readable always succeeds: creating the account
   * does not touch the profile counter.
   */
  lemma CreateUserSucceedsOnFreshEmail(d: Data, cmd: CreateUserCommand, salt: Int32, hashed: (string, Int32) -> string)
    requires d.Valid()
    requires GetUserByEmail(d, cmd.email) == Returned(None)
    requires AllocateId(d.Users(), d.store).Returned? && AllocateId(d.Profiles(), d.store).Returned?
    ensures var u := HerdDataProvider.CreateUser(d, NewAccount(cmd, salt, hashed));
            u.Returned? && AllocateId(d.Profiles(), u.value.data.store) == AllocateId(d.Profiles(), d.store)
    ensures HerdApp.CreateUser(d, cmd, salt, hashed).result.Success()
  {
    var u := HerdDataProvider.CreateUser(d, NewAccount(cmd, salt, hashed)).value;
    assert AllocateId(u.data.Profiles(), u.data.store) == AllocateId(d.Profiles(), d.store);
  }

  /**
   * After a successful `CreateUser` the user counter stands one past the new account's
   * ID: neither the profile create nor the account's second write moves it.
   */
  lemma CreateUserAdvancesUserCounter(d: Data, cmd: CreateUserCommand, salt: Int32, hashed: (string, Int32) -> string)
    requires d.Valid()
    requires HerdApp.CreateUser(d, cmd, salt, hashed).result.Success()
    ensures var r := HerdApp.CreateUser(d, cmd, salt, hashed);
            AllocateId(d.Users(), r.state.store) == Returned(UncheckedIncrement(r.result.data.value.user.id))
  {
    CreateUserStages(d, cmd, salt, hashed);
    var account := NewAccount(cmd, salt, hashed);
    var u := HerdDataProvider.CreateUser(d, account).value;
    var p := CreateProfile(u.data, Entity(0, UserProfile(cmd.firstName, cmd.lastName, u.entity.id))).value;
    var user := u.entity.(fields := u.entity.fields.(profileId := p.entity.id));
    CreateAdvancesCounter(d.Users(), d.store, account);
    assert AllocateId(d.Users(), p.data.store) == AllocateId(d.Users(), u.data.store);
    UpdateKeepsOwnCounter(d.Users(), p.data.store, user);
  }

  /**
   * After a successful `CreateUser` the profile counter stands one past the new
   * profile's ID: the account's second write does not move it.
   */
  lemma CreateUserAdvancesProfileCounter(d: Data, cmd: CreateUserCommand, salt: Int32, hashed: (string, Int32) -> string)
    requires d.Valid()
    requires HerdApp.CreateUser(d, cmd, salt, hashed).result.Success()
    ensures var r := HerdApp.CreateUser(d, cmd, salt, hashed);
            AllocateId(d.Profiles(), r.state.store) == Returned(UncheckedIncrement(r.result.data.value.profile.value.id))
  {
    CreateUserStages(d, cmd, salt, hashed);
    var u := HerdDataProvider.CreateUser(d, NewAccount(cmd, salt, hashed)).value;
    var profile := Entity(0, UserProfile(cmd.firstName, cmd.lastName, u.entity.id));
    var p := CreateProfile(u.data, profile).value;
    CreateAdvancesCounter(d.Profiles(), u.data.store, profile);
  }

  /**
   * After a successful `CreateUser`, the account and the profile it returns are the ones
   * stored: each reads back by its ID, and each names the other's ID.
   */
  lemma CreateUserStoresLinkedRecords(d: Data, cmd: CreateUserCommand, salt: Int32, hashed: (string, Int32) -> string)
    requires d.Valid() && d.JsonRoundTrips()
    requires HerdApp.CreateUser(d, cmd, salt, hashed).result.Success()
    ensures var r := HerdApp.CreateUser(d, cmd, salt, hashed);
            var user := r.result.data.value.user;
            var profile := r.result.data.value.profile.value;
            && r.state.Valid()
            && HerdDataProvider.GetUser(r.state, user.id) == Some(user)
            && GetProfile(r.state, profile.id) == Some(profile)
            && user.fields.profileId == profile.id && profile.fields.userId == user.id
  {
    CreateUserStages(d, cmd, salt, hashed);
    var u := HerdDataProvider.CreateUser(d, NewAccount(cmd, salt, hashed)).value;
    var p := CreateProfile(u.data, Entity(0, UserProfile(cmd.firstName, cmd.lastName, u.entity.id))).value;
    var user := u.entity.(fields := u.entity.fields.(profileId := p.entity.id));
    CreateProfileThenGet(u.data, Entity(0, UserProfile(cmd.firstName, cmd.lastName, u.entity.id)));
    UpdateUserThenGet(p.data, user);
  }

  /** The `GetUser` command finds an account just created by its ID, profile link included. */
  lemma CreateUserThenGetUser(d: Data, cmd: CreateUserCommand, salt: Int32, hashed: (string, Int32) -> string)
    requires d.Valid() && d.JsonRoundTrips()
    requires HerdApp.CreateUser(d, cmd, salt, hashed).result.Success()
    ensures var r := HerdApp.CreateUser(d, cmd, salt, hashed);
            var user := r.result.data.value.user;
            HerdApp.GetUser(r.state, user.id).result.data == Some(GetUserData(Some(user)))
  {
    CreateUserStoresLinkedRecords(d, cmd, salt, hashed);
  }

  /**
   * After a successful `CreateUser`, the email finds exactly the new account: it is the
   * sole match of the email lookup, so the lookup returns it.
   */
  lemma CreateUserThenFindByEmail(d: Data, cmd: CreateUserCommand, salt: Int32, hashed: (string, Int32) -> string)
    requires d.Valid() && d.JsonRoundTrips()
    requires HerdApp.CreateUser(d, cmd, salt, hashed).result.Success()
    ensures var r := HerdApp.CreateUser(d, cmd, salt, hashed);
            GetUserByEmail(r.state, cmd.email) == Returned(Some(r.result.data.value.user))
  {
    CreateUserStages(d, cmd, salt, hashed);
    var account := NewAccount(cmd, salt, hashed);
    var u := HerdDataProvider.CreateUser(d, account).value;
    var p := CreateProfile(u.data, Entity(0, UserProfile(cmd.firstName, cmd.lastName, u.entity.id))).value;
    var user := u.entity.(fields := u.entity.fields.(profileId := p.entity.id));
    var users := d.Users();
    var key := EntityKeyOf(users, d.store, u.entity.id);
    var final := UpdateUser(p.data, user);
    CreateMakesSoleMatch(users, d.store, account, EmailIs(cmd.email));
    SameViewKeepsSoleMatch(users, u.data.store, p.data.store, EmailIs(cmd.email), key);
    assert key == EntityKeyOf(users, p.data.store, user.id);
    UpdateKeepsSoleMatch(users, p.data.store, user, EmailIs(cmd.email));
    FindSoleMatch(users, final.store, EmailIs(cmd.email), key);
  }

  /** A user just created logs in with the same email and password, and gets that account. */
  lemma CreateUserThenLogin(d: Data, cmd: CreateUserCommand, salt: Int32, hashed: (string, Int32) -> string)
    requires d.Valid() && d.JsonRoundTrips()
    requires HerdApp.CreateUser(d, cmd, salt, hashed).result.Success()
    ensures var r := HerdApp.CreateUser(d, cmd, salt, hashed);
            var login := LoginUser(r.state, LoginUserCommand(cmd.email, cmd.passwordPlainText), hashed);
            && login.result.Success()
            && login.result.data == Some(LoginUserData(r.result.data.value.user))
  {
    CreateUserThenFindByEmail(d, cmd, salt, hashed);
  }

  /** A user just created blocks a second account with the same email, and that attempt writes nothing. */
  lemma CreateUserEmailUnique(d: Data, cmd: CreateUserCommand, again: CreateUserCommand, salt: Int32, salt': Int32,
                              hashed: (string, Int32) -> string)
    requires d.Valid() && d.JsonRoundTrips()
    requires HerdApp.CreateUser(d, cmd, salt, hashed).result.Success()
    requires again.email == cmd.email
    ensures var r := HerdApp.CreateUser(d, cmd, salt, hashed);
            HerdApp.CreateUser(r.state, again, salt', hashed) == Response(CommandResult(None, [UserError(EmailTakenMessage)]), r.state)
  {
    CreateUserThenFindByEmail(d, cmd, salt, hashed);
  }

  /** A wrong password is refused with the same message as an unknown email. */
  lemma LoginRejectsWrongPassword(d: Data, cmd: LoginUserCommand, hashed: (string, Int32) -> string)
    requires GetUserByEmail(d, cmd.email).Returned?
    requires GetUserByEmail(d, cmd.email).value.None? || !PasswordIs(GetUserByEmail(d, cmd.email).value.value, cmd.passwordPlainText, hashed)
    ensures LoginUser(d, cmd, hashed) == Response(CommandResult(None, [UserError(WrongLoginMessage)]), d)
  {
  }

  /**
   * When an instance has no registration and the registration the API returns is for
   * that instance, `GetOrCreateRegistration` creates it once: a second call returns the
   * same registration, writes nothing and does not call the API.
   */
  lemma GetOrCreateRegistrationTwice(d: Data, instance: string, api: Mastodon, api': Mastodon)
    requires d.Valid() && d.JsonRoundTrips()
    requires GetAppRegistrationByInstance(d, instance) == Returned(None)
    requires api.registerApp(instance).Returned? && api.registerApp(instance).value.fields.instance == instance
    requires GetOrCreateRegistration(d, instance, api).result.Success()
    ensures var first := GetOrCreateRegistration(d, instance, api);
            GetOrCreateRegistration(first.state, instance, api') == Response(first.result, first.state)
  {
    var registered := api.registerApp(instance).value;
    FindAfterCreate(d.Registrations(), d.store, registered, InstanceIs(instance));
  }

  /** A registration that get-or-create stored is found by the `GetRegistration` command under its new ID. */
  lemma GetOrCreateThenGetRegistration(d: Data, instance: string, api: Mastodon)
    requires d.JsonRoundTrips()
    requires GetAppRegistrationByInstance(d, instance) == Returned(None)
    requires GetOrCreateRegistration(d, instance, api).result.Success()
    ensures var r := GetOrCreateRegistration(d, instance, api);
            var registration := r.result.data.value.registration.value;
            GetRegistration(r.state, registration.id).result.data == Some(RegistrationData(Some(registration)))
  {
    CreateAppRegistrationThenGet(d, api.registerApp(instance).value);
  }

  /**
   * A registration that get-or-create stored is ready for `GetOAuthURL` under its new ID:
   * the command returns the API's URL for it and writes nothing.
   */
  lemma GetOrCreateThenOAuthUrl(d: Data, instance: string, api: Mastodon, returnUrl: Option<string>)
    requires d.JsonRoundTrips()
    requires GetAppRegistrationByInstance(d, instance) == Returned(None)
    requires GetOrCreateRegistration(d, instance, api).result.Success()
    ensures var r := GetOrCreateRegistration(d, instance, api);
            var registration := r.result.data.value.registration.value;
            var o := GetOAuthUrl(r.state, GetOAuthUrlCommand(registration.id, returnUrl), api);
            && o.state == r.state
            && (o.result.Success() <==> api.getOAuthUrl(registration, returnUrl).Returned?)
            && (o.result.Success() ==>
                  o.result.data == Some(OAuthUrlData(api.getOAuthUrl(registration, returnUrl).value)))
  {
    CreateAppRegistrationThenGet(d, api.registerApp(instance).value);
  }

  /**
   * A get-or-create that registers the app writes exactly the registration counter and
   * the new registration's key, and users and profiles observe nothing of it.
   */
  lemma GetOrCreateRegistrationWritesOne(d: Data, instance: string, api: Mastodon)
    requires d.Valid()
    requires GetAppRegistrationByInstance(d, instance) == Returned(None)
    requires GetOrCreateRegistration(d, instance, api).result.Success()
    ensures var r := GetOrCreateRegistration(d, instance, api);
            var id := r.result.data.value.registration.value.id;
            && (forall k :: (k != NextIdKey(d.store.root, d.store.delim, RegistrationName)
                  && k != EntityKey(d.store.root, d.store.delim, RegistrationName, id)) ==>
                    ReadKey(r.state.store.backend, k) == ReadKey(d.store.backend, k))
            && SameView(d.Users(), d.store, r.state.store)
            && SameView(d.Profiles(), d.store, r.state.store)
  {
  }

  /**
   * `GetOAuthURL` with a blank return URL: the out-of-band URI is computed, but the API
   * is still asked with the command's blank URL.
   */
  lemma OAuthUrlIgnoresFallback(d: Data, cmd: GetOAuthUrlCommand, api: Mastodon)
    requires IsNullOrWhiteSpace(cmd.returnUrl)
    requires GetAppRegistration(d, cmd.appRegistrationId).Some?
    requires api.getOAuthUrl(GetAppRegistration(d, cmd.appRegistrationId).value, cmd.returnUrl).Returned?
    ensures EffectiveReturnUrl(cmd) == NonRedirectUrl && cmd.returnUrl != Some(NonRedirectUrl)
    ensures GetOAuthUrl(d, cmd, api).result.data ==
              Some(OAuthUrlData(api.getOAuthUrl(GetAppRegistration(d, cmd.appRegistrationId).value, cmd.returnUrl).value))
  {
    assert NonRedirectUrl[0] == 'u';
  }
}

=== FILE: herd_data_provider.dfy ===
/**
 * The typed face of the key-value data provider: app registrations, user accounts and
 * user profiles, each an entity type of its own with get-by-ID, create and update, plus
 * the two lookups by field value (a registration by instance, a user by email).
 */
module HerdDataProvider {
  import opened Nullable
  import opened Exceptions
  import opened DotNetText
  import opened KeyValueBackend
  import opened EntityKeys
  import opened EntityStore
  import opened EntityStoreProperties

  /** A Mastodon app registration: the OAuth client credentials issued by one instance. */
  datatype AppRegistration = AppRegistration(
    clientId: string,
    clientSecret: string,
    instance: string,
    mastodonAppRegistrationId: string)

  /** The salt and the salted hash of a user's password. */
  datatype Security = Security(saltKey: Int32, saltedPassword: string)

  /** The Mastodon account a user has connected, if any. */
  datatype MastodonConnection = MastodonConnection(
    appRegistrationId: Int32,
    apiAccessToken: string,
    createdAt: string,
    scope: string,
    tokenType: string,
    mastodonUserId: string)

  datatype UserAccount = UserAccount(
    email: string,
    security: Security,
    profileId: Long,
    mastodonConnection: Option<MastodonConnection>)

  datatype UserProfile = UserProfile(firstName: string, lastName: string, userId: Long)

  type Registration = Entity<AppRegistration>
  type User = Entity<UserAccount>
  type Profile = Entity<UserProfile>

  /** The names `GetEntityName` gives the three record types. */
  const RegistrationName := "AppRegistration"
  const UserName := "UserAccount"
  const ProfileName := "UserProfile"

  /** The JSON of each record type. */
  datatype Json = Json(registration: Codec<AppRegistration>, user: Codec<UserAccount>, profile: Codec<UserProfile>)

  /** A data provider: the key-value store and the JSON of its three record types. */
  datatype Data = Data(store: Store, json: Json)
  {
    function Registrations(): EntityType<AppRegistration>
    {
      EntityType(RegistrationName, json.registration)
    }

    function Users(): EntityType<UserAccount>
    {
      EntityType(UserName, json.user)
    }

    function Profiles(): EntityType<UserProfile>
    {
      EntityType(ProfileName, json.profile)
    }

    /** A well-formed store whose delimiter occurs in none of the type names. */
    ghost predicate Valid()
    {
      && store.Valid()
      && Namespaced(Registrations(), store)
      && Namespaced(Users(), store)
      && Namespaced(Profiles(), store)
    }

    /** Every record type's JSON reads back what it wrote. */
    ghost predicate JsonRoundTrips()
    {
      RoundTrips(json.registration) && RoundTrips(json.user) && RoundTrips(json.profile)
    }

    function WithStore(s: Store): Data
    {
      Data(s, json)
    }
  }

  /**
   * The predicate of `GetAppRegistration(string instance)`: ordinal equality of the
   * `Instance` field, with no case folding or trimming.
   */
  function InstanceIs(instance: string): Registration -> bool
  {
    (r: Registration) => r.fields.instance == instance
  }

  /** The predicate of `GetUser(string email)`: ordinal equality of the `Email` field. */
  function EmailIs(email: string): User -> bool
  {
    (u: User) => u.fields.email == email
  }

  /** Types whose names differ and avoid the delimiter observe nothing of each other's creates. */
  lemma CreateIsolationWhenApart<F, G>(a: EntityType<F>, b: EntityType<G>, s: Store, e: Entity<F>)
    ensures ValidDelimiter(s.delim) && Namespaced(a, s) && Namespaced(b, s) && a.name != b.name
            && CreateEntity(a, s, e).Returned? ==>
              SameView(b, s, CreateEntity(a, s, e).value.store)
  {
    if ValidDelimiter(s.delim) && Namespaced(a, s) && Namespaced(b, s) && a.name != b.name
       && CreateEntity(a, s, e).Returned? {
      CreateIsolation(a, b, s, e);
    }
  }

  /** ... nor of each other's updates. */
  lemma UpdateIsolationWhenApart<F, G>(a: EntityType<F>, b: EntityType<G>, s: Store, e: Entity<F>)
    ensures ValidDelimiter(s.delim) && Namespaced(a, s) && Namespaced(b, s) && a.name != b.name ==>
              SameView(b, s, UpdateEntity(a, s, e))
  {
    if ValidDelimiter(s.delim) && Namespaced(a, s) && Namespaced(b, s) && a.name != b.name {
      UpdateIsolation(a, b, s, e);
    }
  }

  /** A created record and the provider that now holds it. */
  datatype Added<F> = Added(entity: Entity<F>, data: Data)

  /** Lifts a store-level create into the provider. */
  function Lift<F>(d: Data, o: Outcome<Created<F>>): (r: Outcome<Added<F>>)
    ensures r.Returned? <==> o.Returned?
    ensures r.Threw? ==> r.exception == o.exception
    ensures r.Returned? ==> r.value.entity == o.value.entity && r.value.data == d.WithStore(o.value.store)
  {
    match o
    case Threw(x) => Threw(x)
    case Returned(c) => Returned(Added(c.entity, d.WithStore(c.store)))
  }

  // App registrations

  /** `GetAppRegistration(long id)`: the registration stored under that ID, or null. */
  function GetAppRegistration(d: Data, id: Long): (r: Option<Registration>)
    ensures var key := EntityKey(d.store.root, d.store.delim, RegistrationName, id);
            && (r.Some? <==> key in d.store.backend.values && d.json.registration.decode(d.store.backend.values[key]).Some?)
            && (r.Some? ==> r == d.json.registration.decode(d.store.backend.values[key]))
  {
    GetEntity(d.Registrations(), d.store, id)
  }

  /**
   * `GetAppRegistration(string instance)`: the first enumerated registration of that
   * instance, null when there is none.
   */
  function GetAppRegistrationByInstance(d: Data, instance: string): (r: Outcome<Option<Registration>>)
    ensures r.Returned? && r.value.Some? ==>
              r.value.value.fields.instance == instance && r.value in GetAllEntities(d.Registrations(), d.store)
    ensures r == Returned(None) ==>
              forall k :: k in InstanceKeys(d.Registrations(), d.store) ==>
                GetEntityByKey(d.Registrations(), d.store, k).Some?
                && GetEntityByKey(d.Registrations(), d.store, k).value.fields.instance != instance
    ensures r.Threw? ==> r.exception == NullReference
  {
    FindNoneMeansNoMatch(d.Registrations(), d.store, InstanceIs(instance));
    GetEntityWhere(d.Registrations(), d.store, InstanceIs(instance))
  }

  /**
   * `CreateAppRegistration`: stores the registration under the next registration ID.
   * Users and profiles observe nothing of it.
   */
  function CreateAppRegistration(d: Data, reg: Registration): (r: Outcome<Added<AppRegistration>>)
    ensures r.Returned? <==> AllocateId(d.Registrations(), d.store).Returned?
    ensures r.Returned? ==> r.value.entity == reg.(id := AllocateId(d.Registrations(), d.store).value)
    ensures r.Returned? ==> r.value.data.json == d.json
    ensures r.Returned? ==>
              ReadKey(r.value.data.store.backend, EntityKey(d.store.root, d.store.delim, RegistrationName, r.value.entity.id))
                == Some(d.json.registration.encode(r.value.entity))
    ensures r.Returned? && d.Valid() ==>
              && r.value.data.Valid()
              && SameView(d.Users(), d.store, r.value.data.store)
              && SameView(d.Profiles(), d.store, r.value.data.store)
  {
    CreateIsolationWhenApart(d.Registrations(), d.Users(), d.store, reg);
    CreateIsolationWhenApart(d.Registrations(), d.Profiles(), d.store, reg);
    Lift(d, CreateEntity(d.Registrations(), d.store, reg))
  }

  /** `UpdateAppRegistration`: overwrites the registration's key; users and profiles observe nothing. */
  function UpdateAppRegistration(d: Data, reg: Registration): (r: Data)
    ensures r.json == d.json
    ensures ReadKey(r.store.backend, EntityKey(d.store.root, d.store.delim, RegistrationName, reg.id))
              == Some(d.json.registration.encode(reg))
    ensures d.Valid() ==>
              && r.Valid()
              && SameView(d.Users(), d.store, r.store)
              && SameView(d.Profiles(), d.store, r.store)
  {
    UpdateIsolationWhenApart(d.Registrations(), d.Users(), d.store, reg);
    UpdateIsolationWhenApart(d.Registrations(), d.Profiles(), d.store, reg);
    d.WithStore(UpdateEntity(d.Registrations(), d.store, reg))
  }

  // Users

  /** `GetUser(long id)`: the account stored under that ID, or null. */
  function GetUser(d: Data, id: Long): (r: Option<User>)
    ensures var key := EntityKey(d.store.root, d.store.delim, UserName, id);
            && (r.Some? <==> key in d.store.backend.values && d.json.user.decode(d.store.backend.values[key]).Some?)
            && (r.Some? ==> r == d.json.user.decode(d.store.backend.values[key]))
  {
    GetEntity(d.Users(), d.store, id)
  }

  /** `GetUser(string email)`: the first enumerated account with that email, null when there is none. */
  function GetUserByEmail(d: Data, email: string): (r: Outcome<Option<User>>)
    ensures r.Returned? && r.value.Some? ==>
              r.value.value.fields.email == email && r.value in GetAllEntities(d.Users(), d.store)
    ensures r == Returned(None) ==>
              forall k :: k in InstanceKeys(d.Users(), d.store) ==>
                GetEntityByKey(d.Users(), d.store, k).Some?
                && GetEntityByKey(d.Users(), d.store, k).value.fields.email != email
    ensures r.Threw? ==> r.exception == NullReference
  {
    FindNoneMeansNoMatch(d.Users(), d.store, EmailIs(email));
    GetEntityWhere(d.Users(), d.store, EmailIs(email))
  }

  /** `CreateUser`: stores the account under the next user ID; registrations and profiles observe nothing. */
  function CreateUser(d: Data, user: User): (r: Outcome<Added<UserAccount>>)
    ensures r.Returned? <==> AllocateId(d.Users(), d.store).Returned?
    ensures r.Returned? ==> r.value.entity == user.(id := AllocateId(d.Users(), d.store).value)
    ensures r.Returned? ==> r.value.data.json == d.json
    ensures r.Returned? ==>
              ReadKey(r.value.data.store.backend, EntityKey(d.store.root, d.store.delim, UserName, r.value.entity.id))
                == Some(d.json.user.encode(r.value.entity))
    ensures r.Returned? && d.Valid() ==>
              && r.value.data.Valid()
              && SameView(d.Registrations(), d.store, r.value.data.store)
              && SameView(d.Profiles(), d.store, r.value.data.store)
  {
    CreateIsolationWhenApart(d.Users(), d.Registrations(), d.store, user);
    CreateIsolationWhenApart(d.Users(), d.Profiles(), d.store, user);
    Lift(d, CreateEntity(d.Users(), d.store, user))
  }

  /** `UpdateUser`: overwrites the account's key; registrations and profiles observe nothing. */
  function UpdateUser(d: Data, user: User): (r: Data)
    ensures r.json == d.json
    ensures ReadKey(r.store.backend, EntityKey(d.store.root, d.store.delim, UserName, user.id))
              == Some(d.json.user.encode(user))
    ensures d.Valid() ==>
              && r.Valid()
              && SameView(d.Registrations(), d.store, r.store)
              && SameView(d.Profiles(), d.store, r.store)
  {
    UpdateIsolationWhenApart(d.Users(), d.Registrations(), d.store, user);
    UpdateIsolationWhenApart(d.Users(), d.Profiles(), d.store, user);
    d.WithStore(UpdateEntity(d.Users(), d.store, user))
  }

  // Profiles

  /** `GetProfile(long id)`: the profile stored under that ID, or null. */
  function GetProfile(d: Data, id: Long): (r: Option<Profile>)
    ensures var key := EntityKey(d.store.root, d.store.delim, ProfileName, id);
            && (r.Some? <==> key in d.store.backend.values && d.json.profile.decode(d.store.backend.values[key]).Some?)
            && (r.Some? ==> r == d.json.profile.decode(d.store.backend.values[key]))
  {
    GetEntity(d.Profiles(), d.store, id)
  }

  /** `CreateProfile`: stores the profile under the next profile ID; registrations and users observe nothing. */
  function CreateProfile(d: Data, profile: Profile): (r: Outcome<Added<UserProfile>>)
    ensures r.Returned? <==> AllocateId(d.Profiles(), d.store).Returned?
    ensures r.Returned? ==> r.value.entity == profile.(id := AllocateId(d.Profiles(), d.store).value)
    ensures r.Returned? ==> r.value.data.json == d.json
    ensures r.Returned? ==>
              ReadKey(r.value.data.store.backend, EntityKey(d.store.root, d.store.delim, ProfileName, r.value.entity.id))
                == Some(d.json.profile.encode(r.value.entity))
    ensures r.Returned? && d.Valid() ==>
              && r.value.data.Valid()
              && SameView(d.Registrations(), d.store, r.value.data.store)
              && SameView(d.Users(), d.store, r.value.data.store)
  {
    CreateIsolationWhenApart(d.Profiles(), d.Registrations(), d.store, profile);
    CreateIsolationWhenApart(d.Profiles(), d.Users(), d.store, profile);
    Lift(d, CreateEntity(d.Profiles(), d.store, profile))
  }

  /** `UpdateProfile`: overwrites the profile's key; registrations and users observe nothing. */
  function UpdateProfile(d: Data, profile: Profile): (r: Data)
    ensures r.json == d.json
    ensures ReadKey(r.store.backend, EntityKey(d.store.root, d.store.delim, ProfileName, profile.id))
              == Some(d.json.profile.encode(profile))
    ensures d.Valid() ==>
              && r.Valid()
              && SameView(d.Registrations(), d.store, r.store)
              && SameView(d.Users(), d.store, r.store)
  {
    UpdateIsolationWhenApart(d.Profiles(), d.Registrations(), d.store, profile);
    UpdateIsolationWhenApart(d.Profiles(), d.Users(), d.store, profile);
    d.WithStore(UpdateEntity(d.Profiles(), d.store, profile))
  }

  // Reading back what was written

  /** A created registration reads back under the ID it was given. */
  lemma CreateAppRegistrationThenGet(d: Data, reg: Registration)
    requires RoundTrips(d.json.registration)
    requires CreateAppRegistration(d, reg).Returned?
    ensures var a := CreateAppRegistration(d, reg).value;
            GetAppRegistration(a.data, a.entity.id) == Some(a.entity)
  {
    CreateThenGet(d.Registrations(), d.store, reg);
  }

  /** An updated registration reads back as written; other IDs read as before. */
  lemma UpdateAppRegistrationThenGet(d: Data, reg: Registration)
    requires d.Valid() && RoundTrips(d.json.registration)
    ensures GetAppRegistration(UpdateAppRegistration(d, reg), reg.id) == Some(reg)
    ensures forall id :: id != reg.id ==> GetAppRegistration(UpdateAppRegistration(d, reg), id) == GetAppRegistration(d, id)
  {
    UpdateThenGet(d.Registrations(), d.store, reg);
  }

  /** A created account reads back under the ID it was given. */
  lemma CreateUserThenGet(d: Data, user: User)
    requires RoundTrips(d.json.user)
    requires CreateUser(d, user).Returned?
    ensures var a := CreateUser(d, user).value;
            GetUser(a.data, a.entity.id) == Some(a.entity)
  {
    CreateThenGet(d.Users(), d.store, user);
  }

  /** An updated account reads back as written; other IDs read as before. */
  lemma UpdateUserThenGet(d: Data, user: User)
    requires d.Valid() && RoundTrips(d.json.user)
    ensures GetUser(UpdateUser(d, user), user.id) == Some(user)
    ensures forall id :: id != user.id ==> GetUser(UpdateUser(d, user), id) == GetUser(d, id)
  {
    UpdateThenGet(d.Users(), d.store, user);
  }

  /** A created profile reads back under the ID it was given. */
  lemma CreateProfileThenGet(d: Data, profile: Profile)
    requires RoundTrips(d.json.profile)
    requires CreateProfile(d, profile).Returned?
    ensures var a := CreateProfile(d, profile).value;
            GetProfile(a.data, a.entity.id) == Some(a.entity)
  {
    CreateThenGet(d.Profiles(), d.store, profile);
  }

  /** An updated profile reads back as written; other IDs read as before. */
  lemma UpdateProfileThenGet(d: Data, profile: Profile)
    requires d.Valid() && RoundTrips(d.json.profile)
    ensures GetProfile(UpdateProfile(d, profile), profile.id) == Some(profile)
    ensures forall id :: id != profile.id ==> GetProfile(UpdateProfile(d, profile), id) == GetProfile(d, id)
  {
    UpdateThenGet(d.Profiles(), d.store, profile);
  }
}

=== FILE: key_value_backend.dfy ===
/**
 * The three abstract primitives every key-value data provider supplies: enumerate the
 * keys under a root key, read a key, write a key.  A concrete backend (a file store,
 * say) is a value of this type; its enumeration order is whatever order it keeps, here
 * the order in which keys were first written.
 */
module KeyValueBackend {
  import opened Nullable
  import opened DotNetText
  import opened Sequences

  /** The stored values, and the order in which the backend enumerates its keys. */
  datatype Backend = Backend(values: map<string, string>, order: seq<string>)
  {
    /** Every stored key is enumerated exactly once. */
    ghost predicate Valid()
    {
      && (forall k :: k in values <==> k in order)
      && Distinct(order)
    }
  }

  const Empty: Backend := Backend(map[], [])

  /** `ReadKey`: the stored value; a missing key makes the backend throw, here `None`. */
  function ReadKey(b: Backend, key: string): (r: Option<string>)
    ensures r.Some? <==> key in b.values
    ensures r.Some? ==> r.value == b.values[key]
  {
    if key in b.values then Some(b.values[key]) else None
  }

  /** `WriteKey`: creates or overwrites one key; a new key is enumerated after the others. */
  function WriteKey(b: Backend, key: string, value: string): (r: Backend)
    ensures ReadKey(r, key) == Some(value)
    ensures forall k :: k != key ==> ReadKey(r, k) == ReadKey(b, k)
    ensures b.Valid() ==> r.Valid()
  {
    Backend(b.values[key := value], if key in b.values then b.order else b.order + [key])
  }

  /** Whether `key` lies under `rootKey` in the key hierarchy built with delimiter `d`. */
  predicate Under(key: string, rootKey: string, d: char)
  {
    StartsWith(key, rootKey + [d])
  }

  /** `GetAllKeys(rootKey)`: the stored keys under `rootKey`, in enumeration order. */
  function GetAllKeys(b: Backend, rootKey: string, d: char): (r: seq<string>)
    ensures b.Valid() ==> forall k :: k in r <==> k in b.values && Under(k, rootKey, d)
    ensures b.Valid() ==> Distinct(r)
  {
    FilterDistinctIfValid(b, rootKey, d);
    Filter(b.order, k => Under(k, rootKey, d))
  }

  /** Every enumerated key lies under the root it was asked for. */
  lemma GetAllKeysAreUnder(b: Backend, rootKey: string, d: char, k: string)
    requires k in GetAllKeys(b, rootKey, d)
    ensures Under(k, rootKey, d)
  {
  }

  lemma FilterDistinctIfValid(b: Backend, rootKey: string, d: char)
    ensures b.Valid() ==> Distinct(Filter(b.order, k => Under(k, rootKey, d)))
  {
    if b.Valid() {
      FilterDistinct(b.order, k => Under(k, rootKey, d));
    }
  }

  /** Writing a key outside `rootKey` leaves the enumeration under `rootKey` as it was. */
  lemma GetAllKeysAfterWriteOutside(b: Backend, key: string, value: string, rootKey: string, d: char)
    requires !Under(key, rootKey, d)
    ensures GetAllKeys(WriteKey(b, key, value), rootKey, d) == GetAllKeys(b, rootKey, d)
  {
    if key !in b.values {
      FilterAppend(b.order, key, k => Under(k, rootKey, d));
    }
  }
}

=== FILE: nullable.dfy ===
/** C# references that may be `null`: `None` stands for `null`. */
module Nullable {

  datatype Option<+T> = None | Some(value: T)
}

=== FILE: sequences.dfy ===
/** Filtering of sequences, as LINQ's `Where` does it: order kept, nothing added. */
module Sequences {

  /** The elements of `s` that `p` accepts, kept in their order; `FilterCons` states that order. */
  function Filter<T(!new)>(s: seq<T>, p: T -> bool): (r: seq<T>)
    ensures forall x :: x in r <==> x in s && p(x)
    ensures |r| <= |s|
  {
    if |s| == 0 then []
    else Filter(s[..|s| - 1], p) + (if p(s[|s| - 1]) then [s[|s| - 1]] else [])
  }

  predicate Distinct<T(==)>(s: seq<T>)
  {
    forall i, j :: 0 <= i < j < |s| ==> s[i] != s[j]
  }

  /** An element appended after the others is kept, or dropped, after them. */
  lemma FilterAppend<T(!new)>(s: seq<T>, x: T, p: T -> bool)
    ensures Filter(s + [x], p) == Filter(s, p) + (if p(x) then [x] else [])
  {
    assert (s + [x])[..|s|] == s;
  }

  /**
   * Filtering from the front: the first element leads the result when accepted and is
   * dropped otherwise, and the rest follows filtered alike.  By induction on this
   * equation the result is the accepted elements in their order in `s`, repetitions
   * included, and nothing else.
   */
  lemma {:induction false} FilterCons<T(!new)>(x: T, s: seq<T>, p: T -> bool)
    ensures Filter([x] + s, p) == (if p(x) then [x] else []) + Filter(s, p)
  {
    if |s| == 0 {
      assert ([x] + s)[..0] == [];
    } else {
      var init, last := s[..|s| - 1], s[|s| - 1];
      var kept := if p(last) then [last] else [];
      var head := if p(x) then [x] else [];
      var front := [x] + init;
      assert [x] + s == front + [last];
      assert init + [last] == s;
      calc {
        Filter([x] + s, p);
        Filter(front + [last], p);
        { FilterAppend(front, last, p); }
        Filter(front, p) + kept;
        { FilterCons(x, init, p); }
        (head + Filter(init, p)) + kept;
        head + (Filter(init, p) + kept);
        { FilterAppend(init, last, p); }
        head + Filter(s, p);
      }
    }
  }

  lemma {:induction false} FilterDistinct<T(!new)>(s: seq<T>, p: T -> bool)
    requires Distinct(s)
    ensures Distinct(Filter(s, p))
  {
    if |s| > 0 {
      var init := s[..|s| - 1];
      FilterDistinct(init, p);
      assert s[|s| - 1] !in init;
    }
  }
}
